=== FILE: README.md ===
# Gerrit adapter: change reconciliation

A Dafny model of the decision logic of the Gerrit platform adapter of
Renovate. The adapter keeps Gerrit *changes* in step with the branches
Renovate wants to maintain. It covers these steps:

- It encodes the change's topic or hashtag in a logical branch name
  (`<branch>%topic=<topic>` or `<branch>%t=<hashtag>`).
- It finds the bot's own open change for such a name with one search query,
  and picks the *last* change of the answer.
- It folds the changes of a branch into a green, yellow or red status.
- It polls for a change that a push has just created, and then posts the
  pull-request body and votes Code-Review +2, each only when missing.
- It commits a dependency update so that the update reuses the Change-Id of
  the existing change. An empty commit, or one with no diff against the
  current patch-set, is not pushed.
- At start-up, it abandons rejected open changes and fetches every other open
  change into a local branch. The local branch name is rebuilt from the
  change's topic and first hashtag.

The model is functional:

- The review server is a value `Server`: the bot account plus a map from
  change number to the change's detail and messages.
- An operation that writes returns a `Step`: its value, the server
  afterwards, and the list of calls it issued (REST reads and writes, git
  operations, waits).
- An operation that only reads returns a `Lookup`: its value and its calls.
- `Writes` picks the server writes out of a call list. "Nothing is posted
  twice" and "no push on an empty diff" are stated over that list.
- Search answers are inputs, not something derived from the server. The
  search index of Gerrit lags behind the server, which is why `createPr`
  polls. The poll takes one answer per lookup.
- What the git layer answers (a prepared commit's sha, whether the diff is
  empty, whether a push succeeded) is an input record as well.

Modules, in dependency order:

- `Wrappers`: `Option`, `Result`.
- `Text`: the JavaScript string operations the adapter relies on: `includes`,
  `split`, `join`, `trim`, and decimal rendering of numbers.
- `Types`: changes, labels, pull requests, states, errors, and JavaScript
  truthiness of an optional string.
- `Utils`: `utils.ts`.
- `Remote`: calls, the server, and how it applies a write.
- `Client`: `client.ts`.
- `Query`: the query of `findOwnPr`.
- `Locate`: `findPr`, `getBranchPr`, `getPrList`, `getBranchStatus`.
- `Review`: `internalChangeUpdate`, `checkForExistingMessage`,
  `checkForCodeReviewLabel`, `ensureComment`, `updatePr`, `mergePr`.
- `Create`: `createPr`.
- `Commit`: `commitFiles`.
- `Init`: the reconciliation part of `initRepo`.

### Behaviour of the code worth knowing

- **Empty query terms.** The terms are built as `x && 'prefix:' + x` and only
  `undefined` ones are filtered out (`index.ts:193-214`). So an empty topic,
  or the empty branch name of `getPrList`, leaves an empty `+`-segment in the
  query. `Query.EmptyBranchTrailingPlus` and `Query.EmptyTopicKept` state this.
- **Which terms are always there.** The state term is always present, and the
  branch term is always last.
- **What an unchanged diff returns.** Only an *empty prepared commit* returns
  the change's current revision (`index.ts:568-571`). A prepared commit whose
  diff against the fetched patch-set is empty returns the new local commit's
  sha, unpushed (`Commit.NoDiffNoPush`).
- **Unlabelled changes are abandoned.** `checkForCodeReviewLabel(n,
  'rejected')` is true when the change has no Code-Review label at all. So
  `initRepo` abandons such a change rather than fetching it. The model keeps
  this (`Init.UnlabelledChangeAbandoned`).
- **The poll's last wait.** The poll also waits after its fifth, last failed
  lookup, so a change that never appears costs 15 seconds of waits
  (`Create.AllMissesWaitFifteenSeconds`).
- **`approveChange` reads through the response cache.** `getChange` does not
  turn the cache off (`client.ts:63-69`). A second `approveChange` of the same
  change in one run therefore sees the change as it was before the first vote
  and votes +2 again (`Client.ApproveChangeVotesAgainFromCache`). The review
  steps of `index.ts` read the detail and the messages uncached, so repeating
  them writes nothing.

## Model

| member | source | states |
|---|---|---|
| Text.IndexOf | lib/modules/platform/gerrit/utils.ts:35 | the position found is an occurrence of the marker and no earlier position is; none is found exactly when the text does not contain it |
| Text.SplitOn | lib/modules/platform/gerrit/utils.ts:36 | splitting on a separator gives at least one piece, two or more exactly when the separator occurs, no piece contains it, and joining the pieces gives the text back |
| Text.SplitJoin | lib/modules/platform/gerrit/utils.ts:36-37 | splitting the join of separator-free pieces gives exactly those pieces back |
| Text.Trim | lib/modules/platform/gerrit/index.ts:308 | the trimmed text is a substring of the original that neither starts nor ends with JavaScript white space, and everything cut off on either side is white space, so only an all-white-space text trims to empty |
| Text.NatToStringRoundTrip | lib/modules/platform/gerrit/client.ts:65 | a change number rendered in decimal reads back as the same number |
| Text.IntToString | lib/modules/platform/gerrit/client.ts:65 | a number renders as its canonical decimal digits (never empty, no leading zero), with a leading `-` when it is negative |
| Utils.SplitTopicAndBranch | lib/modules/platform/gerrit/utils.ts:32-44 | there is no result exactly when there is no name or it has neither marker; with `%topic=` the branch is the text before the first marker and the topic the text up to the next one, with no hashtag; otherwise the same holds for `%t=` with no topic |
| Utils.TopicRoundTrip | lib/modules/platform/gerrit/utils.ts:35-38 | a branch and a topic joined by `%topic=` split back into the same branch and topic |
| Utils.HashtagRoundTrip | lib/modules/platform/gerrit/utils.ts:39-42 | a branch and a hashtag joined by `%t=` split back into the same two, when neither holds a marker |
| Utils.NoTopicAcrossHashtag | lib/modules/platform/gerrit/utils.ts:35-39 | joining two texts free of `%topic=` with `%t=` creates no `%topic=`, so the hashtag branch of the split is the one taken |
| Utils.MapPrStateToGerritFilter | lib/modules/platform/gerrit/utils.ts:46-60 | every state, the absent one included, has a non-empty query term |
| Utils.FilterTermsDistinct | lib/modules/platform/gerrit/utils.ts:46-60 | two states share a term only when both are All or absent; the not-open term is the negation of the open term |
| Utils.MapGerritChangeStateToPrState | lib/modules/platform/gerrit/utils.ts:62-74 | no server status maps to NotOpen |
| Utils.ChangeStateRoundTrip | lib/modules/platform/gerrit/utils.ts:62-74 | NEW, MERGED and ABANDONED map to Open, Merged and Closed and back; exactly the other statuses map to All |
| Utils.SecondPiece | lib/modules/platform/gerrit/utils.ts:36-40 | the piece after the first marker is non-empty exactly when the text between the first marker and the next one, or the end, is non-empty |
| Utils.MapGerritChangeToPr | lib/modules/platform/gerrit/utils.ts:76-85 | source and target branch are both the change's branch; the state is the mapped server status; `hasReviewers` holds exactly when the reviewers field is present |
| Utils.PrProjection | lib/modules/platform/gerrit/utils.ts:76-85 | only number, status, branch, subject and the presence of reviewers reach the pull request; number and title are copied |
| Client.PrefixEach | lib/modules/platform/gerrit/client.ts:57 | the options string has one prefix per detail plus the details' own lengths |
| Client.MapPrefix | lib/modules/platform/gerrit/client.ts:66 | one prefixed item per detail, in order |
| Client.DetailOptions | lib/modules/platform/gerrit/client.ts:55-66 | the search and change URLs request the same seven details in the same order: the search suffix is `&` followed by the change options |
| Client.ChangeOptionsSpelled | lib/modules/platform/gerrit/client.ts:13-21 | the change options are the seven `o=` options, joined by `&`, in declared order |
| Client.FindChangesUrl | lib/modules/platform/gerrit/client.ts:54-57 | the search URL starts with `a/changes/?q=` and ends with the seven-detail options |
| Client.FindChanges | lib/modules/platform/gerrit/client.ts:50-61 | one search on that URL, cached exactly when no refresh is asked for |
| Client.FindChangesKeepsEveryTerm | lib/modules/platform/gerrit/client.ts:55-56 | the query part splits back into exactly the filter, empty terms included, when no term holds `+` |
| Client.GetChangeUrl | lib/modules/platform/gerrit/client.ts:63-69 | the change URL is `a/changes/`, the decimal change number, then `?` and the change options |
| Client.GetChangeUrlInjective | lib/modules/platform/gerrit/client.ts:65-66 | distinct change numbers give distinct URLs, so the cached read cannot answer for the wrong change |
| Client.CodeReviewLabel | lib/modules/platform/gerrit/client.ts:162 | the label is there exactly when the change reports labels and one of them is Code-Review, and it is that one |
| Client.CheckIfApproved | lib/modules/platform/gerrit/client.ts:160-164 | true exactly when the change has no labels, no Code-Review label, or an approval on it |
| Client.Served | lib/modules/platform/gerrit/client.ts:63-69 | the cacheable change read answers from the response cache when it holds the URL, and otherwise with the server's current detail |
| Client.ApproveChange | lib/modules/platform/gerrit/client.ts:153-164 | its calls are one cacheable change read, then one Code-Review +2 write exactly when what the read answered is not approved; the cache afterwards holds the change as read; an unknown change is an error |
| Client.VoteUnlessApproved | lib/modules/platform/gerrit/client.ts:155-157 | no write when the change as read is approved; otherwise one +2 that lands on that change of the server and touches no other |
| Client.ApproveChangeApproves | lib/modules/platform/gerrit/client.ts:153-158 | when the change was not read earlier in the run, afterwards it counts as approved, and no other change is added, removed or touched |
| Client.ApproveChangeVotesAgainFromCache | lib/modules/platform/gerrit/client.ts:153-164 | a second approval in the same run reads the stale cached change and writes the +2 again |
| Client.ApproveChangeIdempotentUncached | lib/modules/platform/gerrit/client.ts:153-164 | with a cache that does not hold the change, approving again reads once and writes nothing |
| Client.WasApprovedBy | lib/modules/platform/gerrit/client.ts:166-171 | throws exactly when labels exist without Code-Review; true exactly when the approval's username is the one asked about; undefined exactly when there are no labels or no approval |
| Client.VoteMakesApprovedBy | lib/modules/platform/gerrit/client.ts:153-171 | after a +2 by user `u` on a change with a Code-Review label, the change counts as approved and as approved by `u` |
| Client.ApproveChangeApprovedBySelf | lib/modules/platform/gerrit/client.ts:153-171 | a first approval of an unapproved change leaves it approved by the adapter's own account |
| Client.GetProjectInfo | lib/modules/platform/gerrit/client.ts:33-41 | an ACTIVE project is returned unchanged, and any other state is rejected as archived |
| Query.AndPrefix | lib/modules/platform/gerrit/index.ts:193-195 | an undefined value stays undefined, an empty one stays empty, and any other gets the prefix |
| Query.ResolveTarget | lib/modules/platform/gerrit/index.ts:186-190 | the target is the split of the branch name, or the configuration's own branch, topic and hashtag when the name has no marker |
| Query.EffectiveTopic | lib/modules/platform/gerrit/index.ts:191 | an explicit topic wins over the one parsed from the name |
| Query.EffectiveHashtag | lib/modules/platform/gerrit/index.ts:192 | an explicit hashtag wins over the one parsed from the name |
| Query.BranchTerm | lib/modules/platform/gerrit/index.ts:193 | the branch term is empty exactly when the resolved branch is, and otherwise is `branch:` followed by the resolved branch |
| Query.Optional | lib/modules/platform/gerrit/index.ts:214 | an undefined term is dropped and any defined one, empty or not, is kept as it is |
| Query.OwnPrTerms | lib/modules/platform/gerrit/index.ts:193-205 | owner, project and state come first, the branch term last, and between them the `topic:` term of the effective topic, then the `hashtag:` term of the effective hashtag, each only when defined |
| Query.OwnPrOptionsSpelled | lib/modules/platform/gerrit/index.ts:206-211 | the search suffix is the four `&o=` options in declared order |
| Query.FindOwnPr | lib/modules/platform/gerrit/index.ts:212-217 | one search, cached exactly when no refresh is asked for |
| Query.FindOwnPrUrl | lib/modules/platform/gerrit/index.ts:213-215 | the URL is the search prefix, the query and the four-detail options, each recoverable from it |
| Query.OwnPrQuery | lib/modules/platform/gerrit/index.ts:212-214 | the query splits back into exactly its terms, empty ones included, when none holds `+` |
| Query.EmptyBranchTrailingPlus | lib/modules/platform/gerrit/index.ts:193-214 | an empty branch name without topic or hashtag gives `owner:self+project:<r>+<state>+`, with an empty last segment |
| Query.PlainBranchTerms | lib/modules/platform/gerrit/index.ts:186-205 | a plain branch name gives the four terms owner, project, state and `branch:<b>` |
| Query.TopicBranchTerms | lib/modules/platform/gerrit/index.ts:186-205 | a name with a topic searches that topic, or the explicit one, on the branch before the marker |
| Query.HashtagBranchTerms | lib/modules/platform/gerrit/index.ts:186-205 | a name with a hashtag searches that hashtag on the branch before the marker |
| Query.EmptyTopicKept | lib/modules/platform/gerrit/index.ts:191-205 | an explicit empty topic stays in the terms as an empty segment |
| Locate.Last | lib/modules/platform/gerrit/index.ts:226-228 | there is a change exactly when the answer is non-empty, and it is the answer's last element |
| Locate.PickLast | lib/modules/platform/gerrit/index.ts:226-229 | no pull request exactly for an empty answer; otherwise the projection of the last change |
| Locate.FindPr | lib/modules/platform/gerrit/index.ts:222-230 | one search; no pull request exactly when nothing is found, otherwise the last change found |
| Locate.FindPrTakesLast | lib/modules/platform/gerrit/index.ts:226-229 | whatever precedes it, the last change of the answer is the one projected |
| Locate.GetBranchPr | lib/modules/platform/gerrit/index.ts:337-346 | one cached search for open changes on the branch, then a modification check only when a change is found; none exactly when nothing is found |
| Locate.GetBranchPrAgreesWithFindPr | lib/modules/platform/gerrit/index.ts:337-346 | `getBranchPr` picks what `findPr` picks for open changes on the branch, with the same search |
| Locate.GetPrList | lib/modules/platform/gerrit/index.ts:348-352 | one cached search, and every change found projected, in order, none dropped |
| Locate.PrListQuery | lib/modules/platform/gerrit/index.ts:348-352 | the list query is `owner:self+project:<r>+-is:wip+`: every non-draft change of the bot, with an empty branch segment |
| Locate.TargetConfig | lib/modules/platform/gerrit/index.ts:373-380 | open changes on the branch before the marker; the topic or hashtag of the name is passed on exactly when it is non-empty; a name without a marker is searched as it is |
| Locate.CountSubmittableAll | lib/modules/platform/gerrit/index.ts:384-386 | the submittable count reaches the number of changes exactly when every change is submittable |
| Locate.CountProblemsSome | lib/modules/platform/gerrit/index.ts:390-392 | the problem count is positive exactly when some change reports a non-empty problem list |
| Locate.AggregateStatus | lib/modules/platform/gerrit/index.ts:383-398 | green exactly when there are changes and all are submittable; red exactly when some is not submittable and some has problems; yellow for no changes |
| Locate.GetBranchStatus | lib/modules/platform/gerrit/index.ts:369-399 | one uncached search for the target of the name, folded by those rules |
| Locate.StatusOfTopicBranch | lib/modules/platform/gerrit/index.ts:373-380 | a name with a topic searches open changes of that topic on the branch before the marker |
| Review.FindMessage | lib/modules/platform/gerrit/index.ts:313-317 | true exactly when some message contains the text |
| Review.CheckForExistingMessage | lib/modules/platform/gerrit/index.ts:304-318 | one uncached messages read that changes nothing; true exactly when some message contains the trimmed body |
| Review.PostedBodyIsFound | lib/modules/platform/gerrit/index.ts:308-317 | after the body is posted, the check finds it, trimmed or not |
| Review.FoundStaysFound | lib/modules/platform/gerrit/index.ts:313-317 | a new message never hides one found before |
| Review.CheckForCodeReviewLabel | lib/modules/platform/gerrit/index.ts:325-335 | one uncached detail read; true exactly when there is no Code-Review label or the field asked about is set |
| Review.ApprovedCheckAgrees | lib/modules/platform/gerrit/index.ts:333-334 | the adapter's approval check agrees with the client's `checkIfApproved` |
| Review.UnlabelledCountsAsRejected | lib/modules/platform/gerrit/index.ts:333-334 | a change without a Code-Review label counts as both approved and rejected |
| Review.PostBodyIfMissing | lib/modules/platform/gerrit/index.ts:289-294 | the body is posted, tagged `pull-request`, exactly when no message holds it yet; afterwards one does, and nothing else changes |
| Review.VoteIfUnapproved | lib/modules/platform/gerrit/index.ts:295-301 | Code-Review +2 is written exactly when the change is not yet approved; afterwards it is, and the messages and other changes are untouched |
| Review.InternalChangeUpdate | lib/modules/platform/gerrit/index.ts:285-302 | writes are the missing body post, then the missing +2 vote, and nothing else; afterwards both hold, no other change is touched |
| Review.InternalChangeUpdateIdempotent | lib/modules/platform/gerrit/index.ts:285-302 | running the update again on its result writes nothing and changes nothing |
| Review.EnsureComment | lib/modules/platform/gerrit/index.ts:481-506 | always answers true; posts the content exactly when no message holds it, and afterwards one does |
| Review.EnsureCommentIdempotent | lib/modules/platform/gerrit/index.ts:489-505 | commenting twice posts once |
| Review.AbandonIfClosed | lib/modules/platform/gerrit/index.ts:243-245 | abandons exactly when the new state is Closed; the change is then ABANDONED and its messages are kept |
| Review.UpdateBody | lib/modules/platform/gerrit/index.ts:240-242 | the update runs only for a non-empty body: its writes are the body post when no message holds it, then the Code-Review +2 when the change is not approved, after which both the message and the approval hold; an empty or missing body changes nothing and issues nothing; no abandon is written |
| Review.UpdateNeverAbandons | lib/modules/platform/gerrit/index.ts:285-302 | the only writes of the update are message and label posts |
| Review.UpdatePr | lib/modules/platform/gerrit/index.ts:239-246 | the body is handled only when it is a non-empty string: its writes are then the missing body post and the missing Code-Review +2 vote, followed by the abandon when the new state is Closed, and afterwards the message is there and the change counts as approved; for an empty body the only write is that abandon; the change is abandoned exactly when the new state is Closed |
| Review.MergePr | lib/modules/platform/gerrit/index.ts:354-362 | one submit, after which the change has the status the server answered; true exactly when that status maps to Merged |
| Create.CreateSearch | lib/modules/platform/gerrit/index.ts:263-270 | every lookup of the poll bypasses the cache |
| Create.PollFrom | lib/modules/platform/gerrit/index.ts:262-273 | the poll ends after at most five lookups, and ends without a change only after all five |
| Create.PollLookupIsFindPr | lib/modules/platform/gerrit/index.ts:263-270 | each lookup of the poll is `findPr` for open changes on the source branch with a refresh |
| Create.PollForChange | lib/modules/platform/gerrit/index.ts:262-273 | the do-while loop makes one to five lookups, stops at the first that finds something, and every earlier lookup found nothing; its calls are the reference poll's |
| Create.AllMissesWaitFifteenSeconds | lib/modules/platform/gerrit/index.ts:271-273 | when nothing is ever found: five lookups, each followed by a wait of 1 to 5 seconds, the last one included |
| Create.MissCallsAt | lib/modules/platform/gerrit/index.ts:262-273 | the calls of the misses alternate the search with a wait, and the wait after the miss at lookup m is m + 1 seconds |
| Create.HitEndsPolling | lib/modules/platform/gerrit/index.ts:262-273 | a first hit at lookup k gives the last change of that answer; the calls are exactly the k misses, each the search then its wait, followed by the search that hit |
| Create.NotCreatedMessage | lib/modules/platform/gerrit/index.ts:279-281 | the rejection text ends with `refs/for/` and the source branch |
| Create.CreatePr | lib/modules/platform/gerrit/index.ts:253-283 | no change found is rejected with that text; a change found is updated, after which it holds the body and counts as approved, the poll's calls come first, and no change is added or removed |
| Commit.MarkedNames | lib/modules/platform/gerrit/index.ts:530-531 | a name is searched for an existing change exactly when the text after its first `%topic=` is non-empty, or, without `%topic=`, the text after its first `%t=` is |
| Commit.WithChangeId | lib/modules/platform/gerrit/index.ts:542-544 | the message keeps all its lines and gains `Change-Id: <id>` as its last line |
| Commit.UpdateExisting | lib/modules/platform/gerrit/index.ts:545-571 | prepares the commit first; an empty commit returns the current revision; reading a current revision that is missing from the revisions throws; a push happens only on a diff or an unmergeable change |
| Commit.ReuseChange | lib/modules/platform/gerrit/index.ts:541-575 | every commit after a change is found carries that change's Change-Id; a push happens only on a diff or an unmergeable change |
| Commit.CommitFiles | lib/modules/platform/gerrit/index.ts:526-576 | a name without a non-empty topic or hashtag goes straight to commit-and-push; otherwise one cached search first, and with nothing found the message is left as it stands; every commit after a find carries the last found change's Change-Id; a push of the existing change happens only for a marked name with a change found, and only on a diff or an unmergeable change |
| Commit.FoundChangeIdReused | lib/modules/platform/gerrit/index.ts:542-544 | every commit made with the reused Change-Id ends with the `Change-Id: <id>` line |
| Commit.MarkedNameReusesLastFound | lib/modules/platform/gerrit/index.ts:530-541 | for a marked name, the last change of the search answer is the one reused |
| Commit.NoRevisionFallsBack | lib/modules/platform/gerrit/index.ts:545-575 | a found change without a current revision goes to commit-and-push, still with its Change-Id |
| Commit.EmptyCommitReturnsCurrentRevision | lib/modules/platform/gerrit/index.ts:568-571 | an empty prepared commit returns the change's current revision, with no fetch and no push |
| Commit.NoDiffNoPush | lib/modules/platform/gerrit/index.ts:551-567 | with no diff and a mergeable change, the prepared sha is returned after fetch and diff, without a push |
| Commit.DiffIsPushed | lib/modules/platform/gerrit/index.ts:557-564 | a diff or an unmergeable change is pushed, and a successful push registers the branch and returns the sha |
| Commit.FailedPushFallsBack | lib/modules/platform/gerrit/index.ts:559-575 | a failed push falls through to commit-and-push with the reused Change-Id |
| Init.LocalBranchName | lib/modules/platform/gerrit/index.ts:156-160 | the local name starts with the change's branch, and is just the branch when there is no topic and no hashtag |
| Init.TopicNameRoundTrip | lib/modules/platform/gerrit/index.ts:156-160 | the local name of a change with only a topic splits back into its branch and topic |
| Init.HashtagNameRoundTrip | lib/modules/platform/gerrit/index.ts:156-160 | the local name of a change with only hashtags splits back into its branch and first hashtag |
| Init.BothMarkersFoldIntoTopic | lib/modules/platform/gerrit/index.ts:156-160 | with both a topic and a hashtag, the split of the local name reads the hashtag part as part of the topic |
| Init.AbandonKeepsRejections | lib/modules/platform/gerrit/index.ts:152-153 | abandoning a change leaves every change's rejection status as it was |
| Init.FetchChange | lib/modules/platform/gerrit/index.ts:161-166 | the current patch-set ref is fetched into `refs/heads/<name>`, then into `refs/heads/origin/<name>`, then the local name is registered; reading a missing current revision throws |
| Init.SyncOne | lib/modules/platform/gerrit/index.ts:146-166 | a rejected change is abandoned and gets no branch; any other gets its local branch; nothing else on the server changes |
| Init.SyncChanges | lib/modules/platform/gerrit/index.ts:146-167 | the branches made and the abandons written are exactly those of the reference definitions, one per change in order; it fails exactly when some change cannot be reconciled |
| Init.RejectedAbandonedOthersKept | lib/modules/platform/gerrit/index.ts:146-160 | every rejected open change is abandoned and every other one gets its local branch |
| Init.UnlabelledChangeAbandoned | lib/modules/platform/gerrit/index.ts:148-155 | an open change without a Code-Review label is abandoned, not fetched |
| Init.InitRepo | lib/modules/platform/gerrit/index.ts:115-167 | a project that is not ACTIVE is rejected as archived before anything else; otherwise one search for the bot's open changes, then the reconciliation of each |

## Left out

- `getGerritRepoUrl`: it depends on host rules and URL parsing outside the adapter.
- HTTP transport, JSON decoding and anti-XSSI prefix stripping: the server answers with decoded values.
- The response cache: it lives in the HTTP base class, which is not part of this model. Searches record only whether they may use it, since their answers are inputs anyway. The cache of `getChange` is kept as a map to the change read (`Client.ResponseCache`), keyed by change number: the URL is built from the number alone and distinct numbers give distinct URLs (`Client.GetChangeUrlInjective`). It is not evicted.
- The git layer (`git.*`, `commitAndPush`): its answers are inputs and its operations appear as calls.
- The git configuration module: it only holds global settings.
- `initRepo`'s clone, hook installation and HEAD branch read: these are file system and git side effects. The model starts at the project check and continues at the search for open changes.
- `getRawFile` and `getJsonFile`: base64 and JSON5 decoding.
- `massageMarkdown`: text truncation and link rewriting.
- The no-op issue and alert functions, `setBranchStatus`, `deleteLabel` and `ensureCommentRemoval`: they return constants.
- `getRepos`, `getPr`, `getBranchInfo`, `getFile` and the other thin request wrappers: each is a single request with no decision in it.
- `addReviewers` and `addAssignees`: they are not modelled because they only forward to the server. `addReviewers` posts once per reviewer, in the given order (lib/modules/platform/gerrit/index.ts:457-461). `addAssignees` sends only the first assignee and drops the rest (lib/modules/platform/gerrit/index.ts:471-473).
- Logging.
- Delays: the poll records each wait as a call with its length in milliseconds and does not wait.
- Create.PollForChange: it takes exactly five search answers, one per possible lookup. This matches the source's bound.
- Locate.FindPr: the title of the lookup is ignored, as in the source, where the title term is commented out.
- Locate.GetBranchPr: the answer of the modification check is ignored, as in the source.
- Review.MergePr: the status the server answers to the submit is an input; the server takes that status, whatever it is.
- Init.InitRepo: an error result does not carry the writes made before the failure. The source throws at that point too, so those writes are not reported there either.
- Commit.CommitFiles: an error result does not carry the calls made before the failure.
- Commit.CommitFiles: the source writes the message extended with the Change-Id back into the caller's configuration (lib/modules/platform/gerrit/index.ts:544); the model does not return that message. It appears only in the calls that commit with it.
- Text.IntToString: it renders every integer in plain decimal digits. JavaScript's template string `${n}` does that only for safe integers: from 1e21 it switches to exponent notation, and above 2^53 the number has already lost precision. The model assumes change numbers stay in that range, which holds because Gerrit change numbers are 32-bit integers.
- Remote.Apply: the server's own rules (permissions, submit requirements, 409 conflicts) are not modelled. A write to a known change succeeds, and a submit leaves the change in the status it was answered with; a write to an unknown one is a not-found error.

=== FILE: client.dfy ===
/**
 * The REST client class of the Gerrit platform: how it composes search and
 * change URLs from the fixed list of detail options, how it reads the
 * Code-Review label, and the project-state check.
 */
module Client {
  import opened Wrappers
  import opened Text
  import opened Types
  import opened Remote

  /** The detail options the client requests, in the order it sends them. */
  const RequestDetails: seq<string> :=
    ["SUBMITTABLE", "CHECK", "MESSAGES", "DETAILED_ACCOUNTS", "LABELS", "CURRENT_ACTIONS", "CURRENT_REVISION"]

  /** Every item with `prefix` put in front of it, all concatenated with no separator. */
  function PrefixEach(prefix: string, items: seq<string>): (r: string)
    ensures |r| == |items| * |prefix| + SumLengths(items)
  {
    if |items| == 0 then "" else prefix + items[0] + PrefixEach(prefix, items[1..])
  }

  function SumLengths(items: seq<string>): nat {
    if |items| == 0 then 0 else |items[0]| + SumLengths(items[1..])
  }

  /** Every item with `prefix` put in front of it, as a list. */
  function MapPrefix(prefix: string, items: seq<string>): (r: seq<string>)
    ensures |r| == |items|
    ensures forall k :: 0 <= k < |r| ==> r[k] == prefix + items[k]
  {
    if |items| == 0 then [] else [prefix + items[0]] + MapPrefix(prefix, items[1..])
  }

  const SearchPrefix := "a/changes/?q="

  /** The option list of a change read: `o=<detail>` per detail, joined by `&`. */
  const ChangeOptions := Join(MapPrefix("o=", RequestDetails), "&")

  /** The option suffix of a search: `&o=<detail>` per detail. */
  const SearchOptions := PrefixEach("&o=", RequestDetails)

  /** Both URL builders request the same details in the same order: the search suffix is `&` and the change options. */
  lemma DetailOptions()
    ensures SearchOptions == "&" + ChangeOptions
    ensures |MapPrefix("o=", RequestDetails)| == 7
  {
    assert "&" + "o=" == "&o=";
    PrefixEachIsJoin("&", "o=", RequestDetails);
  }

  /** The change options spelled out: seven `o=` options joined by `&`, in declared order. */
  lemma ChangeOptionsSpelled()
    ensures ChangeOptions ==
      "o=" + "SUBMITTABLE" + "&" + ("o=" + "CHECK" + "&" + ("o=" + "MESSAGES" + "&" + ("o=" + "DETAILED_ACCOUNTS" + "&" +
      ("o=" + "LABELS" + "&" + ("o=" + "CURRENT_ACTIONS" + "&" + ("o=" + "CURRENT_REVISION"))))))
  {
    var d6 := ["CURRENT_REVISION"];
    var d5 := ["CURRENT_ACTIONS"] + d6;
    var d4 := ["LABELS"] + d5;
    var d3 := ["DETAILED_ACCOUNTS"] + d4;
    var d2 := ["MESSAGES"] + d3;
    var d1 := ["CHECK"] + d2;
    assert ["SUBMITTABLE"] + d1 == RequestDetails;
    assert d6 == ["CURRENT_REVISION"] + [];
    MapPrefixCons("o=", "CURRENT_REVISION", []);
    MapPrefixCons("o=", "CURRENT_ACTIONS", d6);
    MapPrefixCons("o=", "LABELS", d5);
    MapPrefixCons("o=", "DETAILED_ACCOUNTS", d4);
    MapPrefixCons("o=", "MESSAGES", d3);
    MapPrefixCons("o=", "CHECK", d2);
    MapPrefixCons("o=", "SUBMITTABLE", d1);
    JoinCons("o=" + "CURRENT_ACTIONS", MapPrefix("o=", d6), "&");
    JoinCons("o=" + "LABELS", MapPrefix("o=", d5), "&");
    JoinCons("o=" + "DETAILED_ACCOUNTS", MapPrefix("o=", d4), "&");
    JoinCons("o=" + "MESSAGES", MapPrefix("o=", d3), "&");
    JoinCons("o=" + "CHECK", MapPrefix("o=", d2), "&");
    JoinCons("o=" + "SUBMITTABLE", MapPrefix("o=", d1), "&");
  }

  /** Prefixing every item with `sep + p` is `sep` followed by the items prefixed with `p` and joined by `sep`. */
  lemma {:induction false} PrefixEachIsJoin(sep: string, p: string, xs: seq<string>)
    requires |xs| > 0
    ensures PrefixEach(sep + p, xs) == sep + Join(MapPrefix(p, xs), sep)
  {
    if |xs| > 1 {
      PrefixEachIsJoin(sep, p, xs[1..]);
      var m := MapPrefix(p, xs);
      assert m[1..] == MapPrefix(p, xs[1..]);
    }
  }

  lemma PrefixEachCons(p: string, x: string, xs: seq<string>)
    ensures PrefixEach(p, [x] + xs) == p + x + PrefixEach(p, xs)
  {
    assert ([x] + xs)[1..] == xs;
  }

  lemma MapPrefixCons(p: string, x: string, xs: seq<string>)
    ensures MapPrefix(p, [x] + xs) == [p + x] + MapPrefix(p, xs)
  {
    assert ([x] + xs)[1..] == xs;
  }

  lemma JoinCons(x: string, xs: seq<string>, sep: string)
    requires |xs| > 0
    ensures Join([x] + xs, sep) == x + sep + Join(xs, sep)
  {
    assert ([x] + xs)[1..] == xs;
  }

  /**
   * The search URL of `findChanges`: every filter term, none dropped, joined
   * by `+`, then one `&o=` option per detail in declared order.
   */
  function FindChangesUrl(filter: seq<string>): (url: string)
    ensures |SearchPrefix| + |SearchOptions| <= |url|
    ensures url[..|SearchPrefix|] == SearchPrefix && url[|url| - |SearchOptions|..] == SearchOptions
  {
    ConcatEnds(SearchPrefix, Join(filter, "+"), SearchOptions);
    SearchPrefix + Join(filter, "+") + SearchOptions
  }

  /** The first and last parts of a three-part concatenation are where they were put. */
  lemma ConcatEnds(a: string, b: string, c: string)
    ensures |a + b + c| == |a| + |b| + |c|
    ensures (a + b + c)[..|a|] == a && (a + b + c)[|a| + |b|..] == c
  {
  }

  /** `findChanges`: the search it issues, cached unless a refresh is asked for. */
  function FindChanges(filter: seq<string>, refreshCache: bool): (c: Call)
    ensures c.Search? && c.useCache == !refreshCache
    ensures c.url == FindChangesUrl(filter)
  {
    Search(FindChangesUrl(filter), !refreshCache)
  }

  /**
   * The query part of a `findChanges` URL splits back into exactly the filter
   * it was built from, when no term holds a `+`: no term is dropped, not even
   * an empty one.
   */
  lemma FindChangesKeepsEveryTerm(filter: seq<string>)
    requires |filter| > 0
    requires forall k :: 0 <= k < |filter| ==> !Contains(filter[k], "+")
    ensures var url := FindChangesUrl(filter);
            SplitOn(url[|SearchPrefix|..|url| - |SearchOptions|], "+") == filter
  {
    var url := FindChangesUrl(filter);
    assert url[|SearchPrefix|..|url| - |SearchOptions|] == Join(filter, "+");
    SplitJoin(filter, "+");
  }

  const ChangePrefix := "a/changes/"

  /** The URL of `getChange`: the change number, `?`, then the same options as a search, joined by `&`. */
  function GetChangeUrl(n: int): (url: string)
    ensures |ChangePrefix| + |IntToString(n)| + 1 + |ChangeOptions| == |url|
    ensures url[..|ChangePrefix|] == ChangePrefix
    ensures url[|ChangePrefix|..|url| - |ChangeOptions| - 1] == IntToString(n)
    ensures url[|url| - |ChangeOptions| - 1..] == "?" + ChangeOptions
  {
    ConcatEnds(ChangePrefix, IntToString(n), "?" + ChangeOptions);
    ChangePrefix + IntToString(n) + ("?" + ChangeOptions)
  }

  /** A number renders without `?`: it is digits, with a leading `-` when negative. */
  lemma IntToStringHasNoQuery(n: int, k: nat)
    requires k < |IntToString(n)|
    ensures IntToString(n)[k] != '?'
  {
    var r := IntToString(n);
    if n < 0 && k > 0 {
      assert r[1..][k - 1] == r[k];
    }
  }

  /** Distinct numbers render distinctly. */
  lemma IntToStringInjective(n: int, m: int)
    requires IntToString(n) == IntToString(m)
    ensures n == m
  {
  }

  /** Two texts without `?` followed by `?` and the same tail are equal when the results are. */
  lemma QueryHeadsEqual(x: string, y: string, tail: string)
    requires forall k :: 0 <= k < |x| ==> x[k] != '?'
    requires forall k :: 0 <= k < |y| ==> y[k] != '?'
    requires x + "?" + tail == y + "?" + tail
    ensures x == y
  {
    var u, v := x + "?" + tail, y + "?" + tail;
    assert |x| == |y|;
    assert x == u[..|x|] && y == v[..|y|];
  }

  /** Behind a common prefix, the parts before the first `?` of two equal strings are equal. */
  lemma QueryHeadsEqualAfter(p: string, x: string, y: string, tail: string)
    requires forall k :: 0 <= k < |x| ==> x[k] != '?'
    requires forall k :: 0 <= k < |y| ==> y[k] != '?'
    requires p + x + "?" + tail == p + y + "?" + tail
    ensures x == y
  {
    assert (p + x + "?" + tail)[|p|..] == x + "?" + tail;
    assert (p + y + "?" + tail)[|p|..] == y + "?" + tail;
    QueryHeadsEqual(x, y, tail);
  }

  /**
   * Distinct changes are read through distinct URLs, so the cacheable
   * `getChange` can never answer for one change with another's data.
   */
  lemma GetChangeUrlInjective(n: int, m: int)
    requires GetChangeUrl(n) == GetChangeUrl(m)
    ensures n == m
  {
    var x, y := IntToString(n), IntToString(m);
    forall k | 0 <= k < |x| ensures x[k] != '?' { IntToStringHasNoQuery(n, k); }
    forall k | 0 <= k < |y| ensures y[k] != '?' { IntToStringHasNoQuery(m, k); }
    QueryHeadsEqualAfter(ChangePrefix, x, y, ChangeOptions);
    IntToStringInjective(n, m);
  }

  /** The Code-Review label of a change, if the change reports labels and has that one. */
  function CodeReviewLabel(c: Change): (r: Option<LabelInfo>)
    ensures r.Some? <==> c.labels.Some? && CodeReview in c.labels.value
    ensures r.Some? ==> r.value == c.labels.value[CodeReview]
  {
    if c.labels.Some? && CodeReview in c.labels.value then Some(c.labels.value[CodeReview]) else None
  }

  /**
   * `checkIfApproved` on the fetched change: a change whose project has no
   * Code-Review label counts as approved.
   */
  function CheckIfApproved(c: Change): (approved: bool)
    ensures approved <==> (c.labels.None? || CodeReview !in c.labels.value || c.labels.value[CodeReview].approved.Some?)
  {
    var review := CodeReviewLabel(c);
    review.None? || review.value.approved.Some?
  }

  /**
   * The response cache of the HTTP layer, as far as change reads go: the
   * change each cacheable `getChange` answered earlier in the run. The cache
   * is keyed by URL; the URL is made from the change number alone and
   * distinct numbers give distinct URLs (`GetChangeUrlInjective`), so the
   * number stands for the URL here.
   */
  type ResponseCache = map<int, Change>

  /**
   * What the cacheable `getChange` of change `n` answers: the cached
   * response when there is one, otherwise the server's current detail;
   * nothing when neither knows the change.
   */
  function Served(s: Server, cache: ResponseCache, n: int): (c: Option<Change>)
    ensures n in cache ==> c == Some(cache[n])
    ensures n !in cache ==> (c.Some? <==> n in s.records)
    ensures n !in cache && n in s.records ==> c.value == s.records[n].detail
  {
    if n in cache then Some(cache[n])
    else if n in s.records then Some(s.records[n].detail)
    else None
  }

  /** The cacheable `getChange` read of change `n`. */
  function ChangeRead(n: int): Call {
    GetChange(GetChangeUrl(n))
  }

  /**
   * `approveChange`: reads the change through the cacheable `getChange`
   * and votes Code-Review +2 exactly when that read shows no approval. The
   * value is the response cache afterwards, which holds the change as read.
   */
  function ApproveChange(s: Server, cache: ResponseCache, n: int): (r: Result<Step<ResponseCache>, Error>)
    ensures var seen := Served(s, cache, n);
            r.Ok? <==> seen.Some? && (CheckIfApproved(seen.value) || n in s.records)
    ensures r.Err? ==> r.error == NotFound(n)
    ensures r.Ok? ==> (r.value.calls ==
              [ChangeRead(n)] + if CheckIfApproved(Served(s, cache, n).value) then [] else [PostLabel(n, CodeReview, 2)])
    ensures r.Ok? ==> r.value.value == cache[n := Served(s, cache, n).value]
  {
    var seen := Served(s, cache, n);
    if seen.None? then
      Err(NotFound(n))
    else
      match VoteUnlessApproved(s, seen.value, n)
      case Err(e) => Err(e)
      case Ok(voted) =>
        var read := ChangeRead(n);
        Ok(Step(cache[n := seen.value], voted.server, [read] + voted.calls))
  }

  /**
   * The write step of `approveChange`, given the change as read: a
   * Code-Review +2 exactly when that change is not approved. The vote lands
   * on the server's change `n` and touches nothing else.
   */
  function VoteUnlessApproved(s: Server, seen: Change, n: int): (r: Result<Step<()>, Error>)
    ensures r.Ok? <==> CheckIfApproved(seen) || n in s.records
    ensures r.Err? ==> r.error == NotFound(n)
    ensures CheckIfApproved(seen) ==> r == Ok(Step((), s, []))
    ensures r.Ok? && !CheckIfApproved(seen) ==>
              && r.value.calls == [PostLabel(n, CodeReview, 2)]
              && r.value.server.self == s.self && r.value.server.records.Keys == s.records.Keys
              && r.value.server.records[n].detail == Vote(s.records[n].detail, CodeReview, 2, s.self)
              && forall m :: m in s.records && m != n ==> r.value.server.records[m] == s.records[m]
  {
    if CheckIfApproved(seen) then
      Ok(Step((), s, []))
    else
      var write := PostLabel(n, CodeReview, 2);
      var s' :- Apply(s, write);
      Ok(Step((), s', [write]))
  }

  /**
   * When the change was not read earlier in the run, an approval leaves it
   * approved on the server; no change is added or removed, and no other
   * change is touched.
   */
  lemma ApproveChangeApproves(s: Server, cache: ResponseCache, n: int)
    requires n in s.records && n !in cache
    ensures var r := ApproveChange(s, cache, n);
            && r.Ok? && r.value.server.records.Keys == s.records.Keys
            && CheckIfApproved(r.value.server.records[n].detail)
            && forall m :: m in s.records && m != n ==> r.value.server.records[m] == s.records[m]
  {
    var c := s.records[n].detail;
    assert Served(s, cache, n) == Some(c);
    var voted := VoteUnlessApproved(s, c, n);
    assert ApproveChange(s, cache, n).value.server == voted.value.server;
  }

  /**
   * A second approval in the same run is answered from the cache with the
   * change as it was before the first vote, so it votes +2 again.
   */
  lemma ApproveChangeVotesAgainFromCache(s: Server, cache: ResponseCache, n: int)
    requires n in s.records && n !in cache
    requires !CheckIfApproved(s.records[n].detail)
    ensures var r := ApproveChange(s, cache, n);
            && r.Ok? && Writes(r.value.calls) == [PostLabel(n, CodeReview, 2)]
            && var again := ApproveChange(r.value.server, r.value.value, n);
               again.Ok? && Writes(again.value.calls) == [PostLabel(n, CodeReview, 2)]
  {
    var r := ApproveChange(s, cache, n);
    assert r.value.value[n] == s.records[n].detail;
    VoteWrites(n);
  }

  /** The read of an approval writes nothing; the read and the vote write the vote. */
  lemma VoteWrites(n: int)
    ensures Writes([ChangeRead(n)]) == []
    ensures Writes([ChangeRead(n)] + [PostLabel(n, CodeReview, 2)]) == [PostLabel(n, CodeReview, 2)]
  {
    WritesSingle(ChangeRead(n));
    WritesSingle(PostLabel(n, CodeReview, 2));
    WritesAppend([ChangeRead(n)], [PostLabel(n, CodeReview, 2)]);
  }

  /** With a cache that does not hold the change, as in a later run, approving again writes nothing. */
  lemma ApproveChangeIdempotentUncached(s: Server, cache: ResponseCache, later: ResponseCache, n: int)
    requires n in s.records && n !in cache && n !in later
    ensures var r := ApproveChange(s, cache, n);
            && r.Ok?
            && var again := ApproveChange(r.value.server, later, n);
               again.Ok? && Writes(again.value.calls) == [] && again.value.server == r.value.server
  {
    var r := ApproveChange(s, cache, n);
    ApproveChangeApproves(s, cache, n);
    VoteWrites(n);
  }

  /** `wasApprovedBy`: `undefined` is `Ok(None)`; the throw on a change with labels but no Code-Review label is an error. */
  function WasApprovedBy(c: Change, username: string): (r: Result<Option<bool>, Error>)
    ensures r.Err? <==> c.labels.Some? && CodeReview !in c.labels.value
    ensures r == Ok(Some(true)) <==>
              && c.labels.Some? && CodeReview in c.labels.value
              && c.labels.value[CodeReview].approved.Some?
              && c.labels.value[CodeReview].approved.value.username == Some(username)
    ensures r.Ok? ==> (r.value.None? <==> c.labels.None? || c.labels.value[CodeReview].approved.None?)
  {
    if c.labels.None? then
      Ok(None)
    else if CodeReview !in c.labels.value then
      Err(TypeError("labels['Code-Review'] is undefined"))
    else
      match c.labels.value[CodeReview].approved
      case None => Ok(None)
      case Some(account) => Ok(Some(account.username == Some(username)))
  }

  /** After a +2 by an account with user name `u` on a change that has a Code-Review label, the change was approved by `u`. */
  lemma VoteMakesApprovedBy(c: Change, u: string)
    requires c.labels.Some? && CodeReview in c.labels.value
    ensures WasApprovedBy(Vote(c, CodeReview, 2, Account(Some(u))), u) == Ok(Some(true))
    ensures CheckIfApproved(Vote(c, CodeReview, 2, Account(Some(u))))
  {
  }

  /**
   * A first approval of a change that was not approved leaves it approved
   * by the account the adapter acts as.
   */
  lemma ApproveChangeApprovedBySelf(s: Server, cache: ResponseCache, n: int, u: string)
    requires n in s.records && n !in cache
    requires !CheckIfApproved(s.records[n].detail) && s.self.username == Some(u)
    ensures var r := ApproveChange(s, cache, n);
            r.Ok? && WasApprovedBy(r.value.server.records[n].detail, u) == Ok(Some(true))
  {
    VoteMakesApprovedBy(s.records[n].detail, u);
  }

  /** `getProjectInfo` on the fetched project: only an ACTIVE project is accepted, unchanged. */
  function GetProjectInfo(info: ProjectInfo): (r: Result<ProjectInfo, Error>)
    ensures r.Ok? <==> info.state == Some("ACTIVE")
    ensures r.Ok? ==> r.value == info
    ensures r.Err? ==> r.error == RepositoryArchived
  {
    if info.state != Some("ACTIVE") then Err(RepositoryArchived) else Ok(info)
  }
}

=== FILE: commit.dfy ===
/**
 * `commitFiles`: a commit for a branch name that carries a topic or hashtag
 * reuses the Change-Id of the open change already on the server, so that
 * the push adds a patch-set to that change instead of opening a new one;
 * an empty commit or an unchanged diff is not pushed at all.
 */
module Commit {
  import opened Wrappers
  import opened Text
  import opened Types
  import opened Utils
  import opened Remote
  import opened Query
  import opened Locate

  /**
   * What the git layer answers during one `commitFiles`: the sha of the
   * prepared commit (none for an empty commit), whether the fetched
   * patch-set differs from it, whether the push succeeded, and the result
   * of the generic commit-and-push.
   */
  datatype GitAnswers = GitAnswers(prepared: Option<string>, hasChanges: bool, pushed: bool, committed: Option<string>)

  /** The branch name carries a non-empty topic or hashtag: only then is an existing change looked for. */
  predicate IsMarked(branchName: string) {
    var t := SplitTopicAndBranch(Some(branchName));
    t.Some? && (Truthy(t.value.topic) || Truthy(t.value.hashtag))
  }

  /**
   * A name is marked exactly when the text after its first `%topic=` is not
   * empty up to the next one, or, with no `%topic=` at all, the same holds
   * for `%t=`.
   */
  lemma MarkedNames(branchName: string)
    ensures IsMarked(branchName) <==>
              || SegmentAfterFirst(branchName, TopicMarker)
              || (!Contains(branchName, TopicMarker) && SegmentAfterFirst(branchName, HashtagMarker))
  {
    if Contains(branchName, TopicMarker) {
      SecondPiece(branchName, TopicMarker);
    } else if Contains(branchName, HashtagMarker) {
      SecondPiece(branchName, HashtagMarker);
    }
  }

  /** The trailer that ties a commit to an existing change. */
  function ChangeIdLine(changeId: string): string {
    "Change-Id: " + changeId
  }

  /** The commit message with the change's Change-Id appended as its last line. */
  function WithChangeId(message: CommitMessage, changeId: string): (r: CommitMessage)
    ensures |r.AsLines()| == |message.AsLines()| + 1
    ensures r.AsLines()[..|message.AsLines()|] == message.AsLines()
    ensures r.AsLines()[|message.AsLines()|] == ChangeIdLine(changeId)
  {
    Lines(message.AsLines() + [ChangeIdLine(changeId)])
  }

  /** The found change has a current revision whose ref can be read. */
  predicate HasCurrentRevision(c: Change) {
    c.revisions.Some? && Truthy(c.currentRevision) && c.currentRevision.value in c.revisions.value
  }

  /** The commit message a call prepares, pushes or hands on, if any. */
  function Committed(c: Call): Option<CommitMessage> {
    match c
    case PrepareCommit(m) => Some(m)
    case PushCommit(m) => Some(m)
    case CommitAndPush(m, _) => Some(m)
    case _ => None
  }

  /** Every commit among `calls` is made with `message`. */
  predicate CommitsWith(calls: seq<Call>, message: CommitMessage) {
    forall k :: 0 <= k < |calls| && Committed(calls[k]).Some? ==> Committed(calls[k]).value == message
  }

  /** The generic path: commit and push as a new change, with no platform commit. */
  function Fallback(message: CommitMessage, git: GitAnswers, done: seq<Call>): Lookup<Option<string>> {
    Lookup(git.committed, done + [CommitAndPush(message, false)])
  }

  /**
   * The branch of `commitFiles` after a change was found that has a current
   * revision: prepare the commit with the reused Change-Id; return the
   * current revision when it is empty; otherwise fetch the current
   * patch-set, and push only when the diff is not empty or the change is
   * not mergeable. A push that fails falls back to the generic path.
   */
  function UpdateExisting(branchName: string, change: Change, message: CommitMessage, git: GitAnswers, done: seq<Call>): (r: Result<Lookup<Option<string>>, Error>)
    requires change.revisions.Some? && Truthy(change.currentRevision)
    ensures r.Err? <==> git.prepared.Some? && change.currentRevision.value !in change.revisions.value
    ensures r.Ok? ==> |r.value.calls| > |done| && r.value.calls[..|done|] == done
    ensures r.Ok? ==> r.value.calls[|done|] == PrepareCommit(message)
    ensures git.prepared.None? ==> r == Ok(Lookup(change.currentRevision, done + [PrepareCommit(message)]))
    ensures r.Ok? && (exists k :: |done| <= k < |r.value.calls| && r.value.calls[k].PushCommit?) ==>
              git.hasChanges || change.mergeable == Some(false)
    ensures r.Ok? ==> CommitsWith(r.value.calls[|done|..], message)
  {
    var prepared := done + [PrepareCommit(message)];
    match git.prepared
    case None => Ok(Lookup(change.currentRevision, prepared))
    case Some(sha) =>
      var revisions := change.revisions.value;
      var current := change.currentRevision.value;
      if current !in revisions then
        Err(TypeError("revisions[current_revision].ref"))
      else
        var fetched := prepared + [Fetch(revisions[current].ref), DiffFetched];
        if git.hasChanges || change.mergeable == Some(false) then
          var pushed := fetched + [PushCommit(message)];
          if git.pushed then
            Ok(Lookup(Some(sha), pushed + [RegisterBranch(branchName)]))
          else
            Ok(Fallback(message, git, pushed))
        else
          Ok(Lookup(Some(sha), fetched))
  }

  /**
   * The branch of `commitFiles` after a change was found: its Change-Id is
   * appended to the message, and the existing change is updated when it
   * has a current revision; otherwise the generic path runs.
   */
  function ReuseChange(branchName: string, change: Change, message: CommitMessage, git: GitAnswers, done: seq<Call>): (r: Result<Lookup<Option<string>>, Error>)
    ensures r.Err? ==> r.error.TypeError?
    ensures r.Ok? ==> |r.value.calls| > |done| && r.value.calls[..|done|] == done
    ensures r.Ok? ==> CommitsWith(r.value.calls[|done|..], WithChangeId(message, change.changeId))
    ensures r.Ok? && (exists k :: |done| <= k < |r.value.calls| && r.value.calls[k].PushCommit?) ==>
              git.hasChanges || change.mergeable == Some(false)
  {
    var withId := WithChangeId(message, change.changeId);
    if change.revisions.Some? && Truthy(change.currentRevision) then
      UpdateExisting(branchName, change, withId, git, done)
    else
      Ok(Fallback(withId, git, done))
  }

  /** Commits made after a search are made with the message the commits after it are made with. */
  lemma CommitsWithAfterSearch(calls: seq<Call>, message: CommitMessage)
    requires |calls| > 0 && calls[0].Search? && CommitsWith(calls[1..], message)
    ensures CommitsWith(calls, message)
  {
    forall k | 0 <= k < |calls| && Committed(calls[k]).Some?
      ensures Committed(calls[k]).value == message
    {
      assert calls[k] == calls[1..][k - 1];
    }
  }

  /**
   * `commitFiles`. A name without a non-empty topic or hashtag goes straight
   * to the generic commit-and-push. Otherwise one cached search for open
   * changes of that topic or hashtag on the branch; when one is found, the
   * existing change is reused; when none is, the generic path runs with the
   * message as it stands.
   */
  function CommitFiles(repo: string, branchName: string, message: CommitMessage, found: seq<Change>, git: GitAnswers): (r: Result<Lookup<Option<string>>, Error>)
    ensures !IsMarked(branchName) ==> r == Ok(Lookup(git.committed, [CommitAndPush(message, false)]))
    ensures IsMarked(branchName) ==> r.Ok? ==> |r.value.calls| >= 2 && r.value.calls[0] == FindOwnPr(repo, TargetConfig(branchName), false)
    ensures IsMarked(branchName) && |found| == 0 ==> r == Ok(Lookup(git.committed, [FindOwnPr(repo, TargetConfig(branchName), false), CommitAndPush(message, false)]))
    ensures r.Err? ==> r.error.TypeError?
    ensures r.Ok? && IsMarked(branchName) && |found| > 0 ==>
              CommitsWith(r.value.calls, WithChangeId(message, found[|found| - 1].changeId))
    ensures r.Ok? && (exists k :: 0 <= k < |r.value.calls| && r.value.calls[k].PushCommit?) ==>
              && IsMarked(branchName) && |found| > 0
              && (git.hasChanges || found[|found| - 1].mergeable == Some(false))
  {
    if !IsMarked(branchName) then
      Ok(Lookup(git.committed, [CommitAndPush(message, false)]))
    else
      SearchThenCommit(branchName, message, found, git, FindOwnPr(repo, TargetConfig(branchName), false))
  }

  /**
   * The part of `commitFiles` for a marked name, after its search: the last
   * change found is reused; with none, the generic path runs.
   */
  function SearchThenCommit(branchName: string, message: CommitMessage, found: seq<Change>, git: GitAnswers, search: Call): (r: Result<Lookup<Option<string>>, Error>)
    requires search.Search?
    ensures |found| == 0 ==> r == Ok(Lookup(git.committed, [search, CommitAndPush(message, false)]))
    ensures |found| > 0 ==> r == ReuseChange(branchName, found[|found| - 1], message, git, [search])
    ensures r.Ok? ==> |r.value.calls| >= 2 && r.value.calls[0] == search
    ensures r.Err? ==> r.error.TypeError?
    ensures r.Ok? && |found| > 0 ==> CommitsWith(r.value.calls, WithChangeId(message, found[|found| - 1].changeId))
    ensures r.Ok? && (exists k :: 0 <= k < |r.value.calls| && r.value.calls[k].PushCommit?) ==>
              |found| > 0 && (git.hasChanges || found[|found| - 1].mergeable == Some(false))
  {
    match Last(found)
    case None => Ok(Lookup(git.committed, [search, CommitAndPush(message, false)]))
    case Some(change) => ReuseAfterSearch(branchName, change, message, git, search)
  }

  /** The reuse of a found change, after the search that found it. */
  function ReuseAfterSearch(branchName: string, change: Change, message: CommitMessage, git: GitAnswers, search: Call): (r: Result<Lookup<Option<string>>, Error>)
    requires search.Search?
    ensures r == ReuseChange(branchName, change, message, git, [search])
    ensures r.Ok? ==> |r.value.calls| >= 2 && r.value.calls[0] == search
    ensures r.Ok? ==> CommitsWith(r.value.calls, WithChangeId(message, change.changeId))
  {
    var r := ReuseChange(branchName, change, message, git, [search]);
    if r.Ok? then
      assert r.value.calls[1..] == r.value.calls[|[search]|..];
      CommitsWithAfterSearch(r.value.calls, WithChangeId(message, change.changeId));
      r
    else
      r
  }

  /** Every commit made with the reused Change-Id ends with the `Change-Id` trailer. */
  lemma FoundChangeIdReused(calls: seq<Call>, message: CommitMessage, changeId: string, k: nat)
    requires CommitsWith(calls, WithChangeId(message, changeId))
    requires k < |calls| && Committed(calls[k]).Some?
    ensures var m := Committed(calls[k]).value;
            |m.AsLines()| > 0 && m.AsLines()[|m.AsLines()| - 1] == ChangeIdLine(changeId)
  {
  }

  /** For a marked name, the first change found, counting from the end, is the one reused, after the search. */
  lemma MarkedNameReusesLastFound(repo: string, branchName: string, message: CommitMessage, found: seq<Change>, change: Change, git: GitAnswers)
    requires IsMarked(branchName) && Last(found) == Some(change)
    ensures CommitFiles(repo, branchName, message, found, git)
            == ReuseChange(branchName, change, message, git, [FindOwnPr(repo, TargetConfig(branchName), false)])
  {
  }

  /** A found change without a readable current revision falls back to the generic path, with the reused Change-Id. */
  lemma NoRevisionFallsBack(branchName: string, change: Change, message: CommitMessage, git: GitAnswers, done: seq<Call>)
    requires change.revisions.None? || !Truthy(change.currentRevision)
    ensures ReuseChange(branchName, change, message, git, done)
            == Ok(Lookup(git.committed, done + [CommitAndPush(WithChangeId(message, change.changeId), false)]))
  {
  }

  /** An empty prepared commit returns the change's current revision and pushes nothing. */
  lemma EmptyCommitReturnsCurrentRevision(branchName: string, change: Change, message: CommitMessage, git: GitAnswers, done: seq<Call>)
    requires git.prepared.None? && change.revisions.Some? && Truthy(change.currentRevision)
    ensures ReuseChange(branchName, change, message, git, done)
            == Ok(Lookup(change.currentRevision, done + [PrepareCommit(WithChangeId(message, change.changeId))]))
  {
  }

  /**
   * With a prepared commit, an unchanged diff and a mergeable change, the
   * commit's sha is returned after fetching the current patch-set and
   * comparing, without any push.
   */
  lemma NoDiffNoPush(branchName: string, change: Change, message: CommitMessage, git: GitAnswers, done: seq<Call>)
    requires git.prepared.Some? && !git.hasChanges && change.mergeable != Some(false)
    requires HasCurrentRevision(change)
    ensures var withId := WithChangeId(message, change.changeId);
            var ref := change.revisions.value[change.currentRevision.value].ref;
            ReuseChange(branchName, change, message, git, done)
            == Ok(Lookup(git.prepared, done + [PrepareCommit(withId), Fetch(ref), DiffFetched]))
  {
    var withId := WithChangeId(message, change.changeId);
    var ref := change.revisions.value[change.currentRevision.value].ref;
    assert done + [PrepareCommit(withId)] + [Fetch(ref), DiffFetched] == done + [PrepareCommit(withId), Fetch(ref), DiffFetched];
  }

  /**
   * A diff, or a change that is no longer mergeable, is pushed; a
   * successful push registers the branch and returns the commit's sha.
   */
  lemma DiffIsPushed(branchName: string, change: Change, message: CommitMessage, git: GitAnswers, done: seq<Call>)
    requires git.prepared.Some? && git.pushed && (git.hasChanges || change.mergeable == Some(false))
    requires HasCurrentRevision(change)
    ensures var withId := WithChangeId(message, change.changeId);
            var ref := change.revisions.value[change.currentRevision.value].ref;
            ReuseChange(branchName, change, message, git, done)
            == Ok(Lookup(git.prepared, done + [PrepareCommit(withId), Fetch(ref), DiffFetched, PushCommit(withId), RegisterBranch(branchName)]))
  {
    var withId := WithChangeId(message, change.changeId);
    var ref := change.revisions.value[change.currentRevision.value].ref;
    assert done + [PrepareCommit(withId)] + [Fetch(ref), DiffFetched] + [PushCommit(withId)] + [RegisterBranch(branchName)]
           == done + [PrepareCommit(withId), Fetch(ref), DiffFetched, PushCommit(withId), RegisterBranch(branchName)];
  }

  /** A failed push falls back to the generic commit-and-push, still with the reused Change-Id. */
  lemma FailedPushFallsBack(branchName: string, change: Change, message: CommitMessage, git: GitAnswers, done: seq<Call>)
    requires git.prepared.Some? && !git.pushed && (git.hasChanges || change.mergeable == Some(false))
    requires HasCurrentRevision(change)
    ensures var withId := WithChangeId(message, change.changeId);
            var ref := change.revisions.value[change.currentRevision.value].ref;
            ReuseChange(branchName, change, message, git, done)
            == Ok(Lookup(git.committed, done + [PrepareCommit(withId), Fetch(ref), DiffFetched, PushCommit(withId), CommitAndPush(withId, false)]))
  {
    var withId := WithChangeId(message, change.changeId);
    var ref := change.revisions.value[change.currentRevision.value].ref;
    assert done + [PrepareCommit(withId)] + [Fetch(ref), DiffFetched] + [PushCommit(withId)] + [CommitAndPush(withId, false)]
           == done + [PrepareCommit(withId), Fetch(ref), DiffFetched, PushCommit(withId), CommitAndPush(withId, false)];
  }
}

=== FILE: create.dfy ===
/**
 * `createPr`: the change was created by a push, and the search index shows
 * it only after a while, so the adapter polls a bounded number of times
 * with growing waits, then updates the change it found.
 */
module Create {
  import opened Wrappers
  import opened Types
  import opened Utils
  import opened Remote
  import opened Query
  import opened Locate
  import opened Review
  import opened Client

  /** The number of lookups before giving up. */
  const MaxAttempts: nat := 5

  /** The lookup of `createPr`: open changes on the source branch. */
  function CreateConfig(sourceBranch: string): FindConfig {
    FindConfig(sourceBranch, Some(Open), None, None)
  }

  /** The search every lookup of `createPr` issues: open changes on the source branch, bypassing the cache. */
  function CreateSearch(repo: string, sourceBranch: string): (c: Call)
    ensures c.Search? && !c.useCache
  {
    FindOwnPr(repo, CreateConfig(sourceBranch), true)
  }

  /** The outcome of polling: the pull request found, the calls issued, and how many lookups were made. */
  datatype Poll = Poll(pr: Option<Pr>, calls: seq<Call>, attempts: nat)

  /**
   * The polling from lookup `k` (counting from 0) on, as a recursive
   * reference, for a lookup issued as `search` that answers `answers[k]`
   * the k-th time: a lookup that finds nothing is followed by a wait of
   * (k + 1) seconds, the last one included; the first lookup that finds
   * something ends the polling with the last change it found.
   */
  function PollFrom(search: Call, answers: seq<seq<Change>>, k: nat): (p: Poll)
    requires k < MaxAttempts == |answers|
    ensures k < p.attempts <= MaxAttempts
    ensures p.pr.None? ==> p.attempts == MaxAttempts
    decreases MaxAttempts - k
  {
    var hit := PickLast(answers[k]);
    if hit.Some? then
      Poll(hit, [search], k + 1)
    else if k + 1 < MaxAttempts then
      var rest := PollFrom(search, answers, k + 1);
      Poll(rest.pr, [search, Delay((k + 1) * 1000)] + rest.calls, rest.attempts)
    else
      Poll(None, [search, Delay((k + 1) * 1000)], k + 1)
  }

  /** Every lookup of the polling is a `findPr` that issues the `createPr` search and picks the last change. */
  lemma PollLookupIsFindPr(repo: string, sourceBranch: string, found: seq<Change>)
    ensures FindPr(repo, CreateConfig(sourceBranch), true, found) == Lookup(PickLast(found), [CreateSearch(repo, sourceBranch)])
  {
  }

  /**
   * The polling loop as written, for lookups issued as `search`: a
   * do-while that looks up, counts the attempt, waits after a miss, and
   * repeats while nothing is found and fewer than five lookups were made.
   */
  method PollForChange(search: Call, answers: seq<seq<Change>>)
    returns (pr: Option<Pr>, calls: seq<Call>, attempts: nat)
    requires |answers| == MaxAttempts
    ensures Poll(pr, calls, attempts) == PollFrom(search, answers, 0)
    ensures 1 <= attempts <= MaxAttempts
    ensures forall k :: 0 <= k < attempts - 1 ==> |answers[k]| == 0
    ensures pr.Some? <==> |answers[attempts - 1]| > 0
  {
    pr, calls, attempts := None, [], 0;
    while true
      invariant attempts < MaxAttempts
      invariant forall j :: 0 <= j < attempts ==> |answers[j]| == 0
      invariant PolledUpTo(search, answers, calls, attempts)
      decreases MaxAttempts - attempts
    {
      ghost var before := calls;
      pr := PickLast(answers[attempts]);
      assert pr.None? <==> |answers[attempts]| == 0;
      calls := calls + [search];
      attempts := attempts + 1;
      if pr.None? {
        calls := calls + [Delay(attempts * 1000)];
      }
      if pr.Some? || attempts >= MaxAttempts {
        PollLast(search, answers, attempts - 1);
        return;
      }
      assert calls == before + [search, Delay(attempts * 1000)];
      PollResume(search, answers, before, attempts - 1);
    }
  }

  /** A lookup that finds something, or the last one, ends the polling: a search, and a wait after a miss. */
  lemma PollLast(search: Call, answers: seq<seq<Change>>, k: nat)
    requires k < MaxAttempts == |answers|
    requires PickLast(answers[k]).Some? || k + 1 == MaxAttempts
    ensures PollFrom(search, answers, k).pr == PickLast(answers[k])
    ensures PollFrom(search, answers, k).attempts == k + 1
    ensures PollFrom(search, answers, k).calls == [search] + (if PickLast(answers[k]).None? then [Delay((k + 1) * 1000)] else [])
  {
  }

  /** The polling so far, `done`, followed by the polling from lookup `k` on. */
  ghost predicate PolledUpTo(search: Call, answers: seq<seq<Change>>, done: seq<Call>, k: nat)
    requires k < MaxAttempts == |answers|
  {
    var rest := PollFrom(search, answers, k);
    PollFrom(search, answers, 0) == Poll(rest.pr, done + rest.calls, rest.attempts)
  }

  /** A miss at lookup `k`, not the last one, moves a search and a wait into what was done. */
  lemma PollResume(search: Call, answers: seq<seq<Change>>, done: seq<Call>, k: nat)
    requires k + 1 < MaxAttempts == |answers| && |answers[k]| == 0
    requires PolledUpTo(search, answers, done, k)
    ensures PolledUpTo(search, answers, done + [search, Delay((k + 1) * 1000)], k + 1)
  {
    PollUnfold(search, answers, k);
    var rest := PollFrom(search, answers, k + 1);
    assert done + ([search, Delay((k + 1) * 1000)] + rest.calls) == done + [search, Delay((k + 1) * 1000)] + rest.calls;
  }

  /** A lookup that finds nothing, not the last one, is a search and a wait, then the rest of the polling. */
  lemma PollUnfold(search: Call, answers: seq<seq<Change>>, k: nat)
    requires k + 1 < MaxAttempts == |answers| && |answers[k]| == 0
    ensures var rest := PollFrom(search, answers, k + 1);
            PollFrom(search, answers, k) == Poll(rest.pr, [search, Delay((k + 1) * 1000)] + rest.calls, rest.attempts)
  {
  }

  /**
   * When no lookup finds the change, there are five lookups, each followed
   * by a wait, and the waits are one to five seconds: the adapter also
   * waits after its last failed lookup.
   */
  lemma AllMissesWaitFifteenSeconds(search: Call, answers: seq<seq<Change>>)
    requires |answers| == MaxAttempts
    requires forall k :: 0 <= k < MaxAttempts ==> |answers[k]| == 0
    ensures PollFrom(search, answers, 0) ==
              Poll(None, [search, Delay(1000), search, Delay(2000), search, Delay(3000), search, Delay(4000), search, Delay(5000)], 5)
  {
    assert |answers[4]| == 0;
    assert PollFrom(search, answers, 4) == Poll(None, [search, Delay(5000)], 5);
    assert |answers[3]| == 0;
    assert PollFrom(search, answers, 3) == Poll(None, [search, Delay(4000), search, Delay(5000)], 5);
    assert |answers[2]| == 0;
    assert PollFrom(search, answers, 2) == Poll(None, [search, Delay(3000), search, Delay(4000), search, Delay(5000)], 5);
    assert |answers[1]| == 0;
    assert PollFrom(search, answers, 1).calls == [search, Delay(2000), search, Delay(3000), search, Delay(4000), search, Delay(5000)];
    assert |answers[0]| == 0;
  }

  /**
   * The calls of missed lookups `i` to `k - 1` (counting from 0): each is
   * the search, then a wait of one second more than the wait before it,
   * starting at `i + 1` seconds.
   */
  function MissCalls(search: Call, i: nat, k: nat): (calls: seq<Call>)
    requires i <= k
    ensures |calls| == 2 * (k - i)
    decreases k - i
  {
    if i == k then [] else [search, Delay((i + 1) * 1000)] + MissCalls(search, i + 1, k)
  }

  /** The `j`-th miss among lookups `i` to `k - 1` is the search, then a wait of `i + j + 1` seconds. */
  lemma {:induction false} MissCallsAt(search: Call, i: nat, k: nat, j: nat)
    requires i <= k && j < k - i
    ensures MissCalls(search, i, k)[2 * j] == search
    ensures MissCalls(search, i, k)[2 * j + 1] == Delay((i + j + 1) * 1000)
    decreases j
  {
    if j > 0 {
      MissCallsAt(search, i + 1, k, j - 1);
      var rest := MissCalls(search, i + 1, k);
      assert MissCalls(search, i, k)[2 * j] == rest[2 * (j - 1)];
      assert MissCalls(search, i, k)[2 * j + 1] == rest[2 * (j - 1) + 1];
    }
  }

  /**
   * The first lookup that finds something ends the polling: when that is
   * the k-th (from 0), there were k misses, each a search followed by a
   * wait, then the search that hit; the result is the last change of that
   * answer.
   */
  lemma {:induction false} HitEndsPolling(search: Call, answers: seq<seq<Change>>, k: nat)
    requires k < MaxAttempts == |answers| && |answers[k]| > 0
    requires forall j :: 0 <= j < k ==> |answers[j]| == 0
    ensures PollFrom(search, answers, 0).pr == Some(MapGerritChangeToPr(answers[k][|answers[k]| - 1]))
    ensures PollFrom(search, answers, 0).attempts == k + 1
    ensures |PollFrom(search, answers, 0).calls| == 2 * k + 1
    ensures PollFrom(search, answers, 0).calls == MissCalls(search, 0, k) + [search]
  {
    HitFrom(search, answers, 0, k);
  }

  lemma {:induction false} HitFrom(search: Call, answers: seq<seq<Change>>, i: nat, k: nat)
    requires i <= k < MaxAttempts == |answers| && |answers[k]| > 0
    requires forall j :: i <= j < k ==> |answers[j]| == 0
    ensures PollFrom(search, answers, i).pr == Some(MapGerritChangeToPr(answers[k][|answers[k]| - 1]))
    ensures PollFrom(search, answers, i).attempts == k + 1
    ensures PollFrom(search, answers, i).calls == MissCalls(search, i, k) + [search]
    decreases k - i
  {
    if i < k {
      HitFrom(search, answers, i + 1, k);
      PollUnfold(search, answers, i);
      var wait := [search, Delay((i + 1) * 1000)];
      var rest := MissCalls(search, i + 1, k);
      assert wait + (rest + [search]) == (wait + rest) + [search];
    } else {
      assert MissCalls(search, k, k) + [search] == [search];
    }
  }

  /** The rejection text of `createPr`, naming the ref the change should have been pushed to. */
  function NotCreatedMessage(sourceBranch: string): (m: string)
    ensures |m| > |sourceBranch| + 9 && m[|m| - |sourceBranch|..] == sourceBranch
    ensures m[|m| - |sourceBranch| - 9..|m| - |sourceBranch|] == "refs/for/"
  {
    var lead := "the change should be created automatically from previous push to ";
    var m := lead + "refs/for/" + sourceBranch;
    assert m[|m| - |sourceBranch|..] == sourceBranch;
    assert m[|lead|..|lead| + 9] == "refs/for/";
    m
  }

  /**
   * `createPr`: poll for the change; when found, post the body and vote
   * +2 through `internalChangeUpdate` and return the pull request; when
   * not, reject with a text naming `refs/for/<source branch>`.
   */
  method CreatePr(s: Server, repo: string, sourceBranch: string, body: string, answers: seq<seq<Change>>)
    returns (r: Result<Step<Pr>, Error>)
    requires |answers| == MaxAttempts
    ensures var p := PollFrom(CreateSearch(repo, sourceBranch), answers, 0);
            p.pr.None? ==> r == Err(ChangeNotCreated(NotCreatedMessage(sourceBranch)))
    ensures var p := PollFrom(CreateSearch(repo, sourceBranch), answers, 0);
            p.pr.Some? ==> (r.Ok? <==> p.pr.value.number in s.records)
    ensures var p := PollFrom(CreateSearch(repo, sourceBranch), answers, 0);
            r.Ok? ==> && p.pr == Some(r.value.value)
                      && |r.value.calls| >= |p.calls| && r.value.calls[..|p.calls|] == p.calls
                      && HasMessage(r.value.server, r.value.value.number, body)
                      && CheckIfApproved(r.value.server.records[r.value.value.number].detail)
    ensures r.Err? ==> r.error.ChangeNotCreated? || r.error.NotFound?
    ensures r.Ok? ==> r.value.server.records.Keys == s.records.Keys && r.value.server.self == s.self
  {
    var pr, calls, attempts := PollForChange(CreateSearch(repo, sourceBranch), answers);
    if pr.None? {
      return Err(ChangeNotCreated(NotCreatedMessage(sourceBranch)));
    }
    var update := InternalChangeUpdate(s, pr.value.number, body);
    match update {
      case Err(e) =>
        return Err(e);
      case Ok(step) =>
        assert (calls + step.calls)[..|calls|] == calls;
        return Ok(Step(pr.value, step.server, calls + step.calls));
    }
  }
}

=== FILE: init.dfy ===
/**
 * The part of `initRepo` that reconciles the server with the local
 * repository: after the project is found active, every open change of the
 * bot is either abandoned (when its Code-Review label counts as rejected)
 * or fetched into a local branch whose name carries the change's topic and
 * first hashtag, so that later runs find it under that name.
 */
module Init {
  import opened Wrappers
  import opened Text
  import opened Types
  import opened Utils
  import opened Remote
  import opened Client
  import opened Query
  import opened Review

  /**
   * The local branch name of a change: its target branch, then the topic
   * after `%topic=` when it is non-empty, then the first hashtag after
   * `%t=` when there is one.
   */
  function LocalBranchName(c: Change): (name: string)
    ensures |name| >= |c.branch| && name[..|c.branch|] == c.branch
    ensures !Truthy(c.topic) && (c.hashtags.None? || |c.hashtags.value| == 0) ==> name == c.branch
  {
    var topicSuffix := if Truthy(c.topic) then TopicMarker + c.topic.value else "";
    var hashtagSuffix := if c.hashtags.Some? && |c.hashtags.value| > 0 then HashtagMarker + c.hashtags.value[0] else "";
    c.branch + topicSuffix + hashtagSuffix
  }

  /** A topic alone comes back out of the local branch name unchanged. */
  lemma TopicNameRoundTrip(c: Change)
    requires Truthy(c.topic) && (c.hashtags.None? || |c.hashtags.value| == 0)
    requires !Contains(c.branch, TopicMarker) && !Contains(c.topic.value, TopicMarker)
    ensures SplitTopicAndBranch(Some(LocalBranchName(c))) == Some(BranchTarget(c.branch, c.topic, None))
  {
    assert LocalBranchName(c) == c.branch + TopicMarker + c.topic.value;
    TopicRoundTrip(c.branch, c.topic.value);
  }

  /** A first hashtag alone comes back out of the local branch name unchanged. */
  lemma HashtagNameRoundTrip(c: Change)
    requires !Truthy(c.topic) && c.hashtags.Some? && |c.hashtags.value| > 0
    requires !Contains(c.branch, TopicMarker) && !Contains(c.hashtags.value[0], TopicMarker)
    requires !Contains(c.branch, HashtagMarker) && !Contains(c.hashtags.value[0], HashtagMarker)
    ensures SplitTopicAndBranch(Some(LocalBranchName(c))) == Some(BranchTarget(c.branch, None, Some(c.hashtags.value[0])))
  {
    assert LocalBranchName(c) == c.branch + HashtagMarker + c.hashtags.value[0];
    HashtagRoundTrip(c.branch, c.hashtags.value[0]);
  }

  /**
   * A change with both a topic and a hashtag gets a name whose hashtag
   * part is read back as part of the topic: the split looks for `%topic=`
   * first and takes everything up to the next `%topic=`.
   */
  lemma BothMarkersFoldIntoTopic(c: Change)
    requires Truthy(c.topic) && c.hashtags.Some? && |c.hashtags.value| > 0
    requires !Contains(c.branch, TopicMarker)
    requires !Contains(c.topic.value + HashtagMarker + c.hashtags.value[0], TopicMarker)
    ensures SplitTopicAndBranch(Some(LocalBranchName(c)))
            == Some(BranchTarget(c.branch, Some(c.topic.value + HashtagMarker + c.hashtags.value[0]), None))
  {
    var t := c.topic.value + HashtagMarker + c.hashtags.value[0];
    assert LocalBranchName(c) == c.branch + TopicMarker + t;
    TopicRoundTrip(c.branch, t);
  }

  /**
   * `checkForCodeReviewLabel(n, 'rejected')` on the server: true when the
   * change has no Code-Review label at all, or a rejection on it.
   */
  predicate IsRejected(s: Server, n: int) {
    n in s.records && (CodeReviewLabel(s.records[n].detail).None? || CodeReviewLabel(s.records[n].detail).value.rejected.Some?)
  }

  /** The change lists its current revision among its revisions, so that revision's ref can be read. */
  predicate HasCurrentRef(c: Change) {
    c.revisions.Some? && c.currentRevision.Some? && c.currentRevision.value in c.revisions.value
  }

  /** The change can be reconciled: the server knows it, and unless it is abandoned its current ref can be read. */
  predicate Syncable(s: Server, c: Change) {
    c.number in s.records && (IsRejected(s, c.number) || HasCurrentRef(c))
  }

  /** Reference: the abandons of the reconciliation, one per rejected change, in order. */
  function Abandons(s: Server, changes: seq<Change>): seq<Call> {
    if |changes| == 0 then []
    else (if IsRejected(s, changes[0].number) then [Abandon(changes[0].number)] else []) + Abandons(s, changes[1..])
  }

  /** Reference: the local branches of the reconciliation, one per change not rejected, in order. */
  function LocalBranches(s: Server, changes: seq<Change>): seq<string> {
    if |changes| == 0 then []
    else (if IsRejected(s, changes[0].number) then [] else [LocalBranchName(changes[0])]) + LocalBranches(s, changes[1..])
  }

  /** Abandoning a change leaves every label, and so every rejection, as it was. */
  lemma AbandonKeepsRejections(s: Server, n: int)
    requires n in s.records
    ensures Apply(s, Abandon(n)).Ok?
    ensures forall m :: IsRejected(Apply(s, Abandon(n)).value, m) == IsRejected(s, m)
  {
    var s' := Apply(s, Abandon(n)).value;
    forall m
      ensures IsRejected(s', m) == IsRejected(s, m)
    {
      if m in s.records {
        assert s'.records[m].detail.labels == s.records[m].detail.labels;
      }
    }
  }

  /** The fetches of a change kept: its current patch-set into the local branch and into `origin/<name>`, then the registration. */
  function FetchChange(c: Change): (r: Result<seq<Call>, Error>)
    ensures r.Ok? <==> HasCurrentRef(c)
    ensures r.Ok? ==> |r.value| == 3 && r.value[2] == RegisterBranch(LocalBranchName(c))
    ensures r.Ok? ==> var ref := c.revisions.value[c.currentRevision.value].ref;
                      && r.value[0] == Fetch(ref + ":refs/heads/" + LocalBranchName(c))
                      && r.value[1] == Fetch(ref + ":refs/heads/origin/" + LocalBranchName(c))
    ensures r.Ok? ==> Writes(r.value) == []
    ensures r.Err? ==> r.error.TypeError?
  {
    if !HasCurrentRef(c) then
      Err(TypeError("revisions[current_revision].ref"))
    else
      var ref := c.revisions.value[c.currentRevision.value].ref;
      var name := LocalBranchName(c);
      var calls := [Fetch(ref + ":refs/heads/" + name), Fetch(ref + ":refs/heads/origin/" + name), RegisterBranch(name)];
      WritesNone(calls);
      Ok(calls)
  }

  /**
   * One turn of the loop over the open changes: one uncached read of the
   * change's detail; a rejected change is abandoned and yields no branch,
   * any other one is fetched into its local branch.
   */
  function SyncOne(s: Server, c: Change): (r: Result<Step<seq<string>>, Error>)
    ensures r.Ok? <==> Syncable(s, c)
    ensures r.Ok? ==> r.value.server.self == s.self && r.value.server.records.Keys == s.records.Keys
    ensures r.Ok? ==> forall m :: IsRejected(r.value.server, m) == IsRejected(s, m)
    ensures r.Ok? ==> r.value.value == if IsRejected(s, c.number) then [] else [LocalBranchName(c)]
    ensures r.Ok? ==> Writes(r.value.calls) == if IsRejected(s, c.number) then [Abandon(c.number)] else []
  {
    var rejected :- CheckForCodeReviewLabel(s, c.number, Rejected);
    if rejected.value then
      AbandonKeepsRejections(s, c.number);
      var s' := Apply(s, Abandon(c.number)).value;
      WritesSingle(Abandon(c.number));
      WritesAfterRead(GetDetail(c.number), [Abandon(c.number)]);
      Ok(Step([], s', [GetDetail(c.number)] + [Abandon(c.number)]))
    else
      var fetches :- FetchChange(c);
      WritesAfterRead(GetDetail(c.number), fetches);
      Ok(Step([LocalBranchName(c)], s, [GetDetail(c.number)] + fetches))
  }

  /** The references only look at which changes are rejected. */
  lemma {:induction false} ReferencesFollowRejections(s1: Server, s2: Server, changes: seq<Change>)
    requires forall m :: IsRejected(s1, m) == IsRejected(s2, m)
    ensures Abandons(s1, changes) == Abandons(s2, changes)
    ensures LocalBranches(s1, changes) == LocalBranches(s2, changes)
    decreases |changes|
  {
    if |changes| > 0 {
      ReferencesFollowRejections(s1, s2, changes[1..]);
    }
  }

  /**
   * The loop over the open changes, one turn per change in order; the
   * first failure ends it.
   */
  function SyncChanges(s: Server, changes: seq<Change>): (r: Result<Step<seq<string>>, Error>)
    ensures r.Ok? <==> forall k :: 0 <= k < |changes| ==> Syncable(s, changes[k])
    ensures r.Ok? ==> r.value.server.self == s.self && r.value.server.records.Keys == s.records.Keys
    ensures r.Ok? ==> r.value.value == LocalBranches(s, changes)
    ensures r.Ok? ==> Writes(r.value.calls) == Abandons(s, changes)
    decreases |changes|
  {
    if |changes| == 0 then
      Ok(Step([], s, []))
    else
      var first :- SyncOne(s, changes[0]);
      assert forall k :: 1 <= k < |changes| ==> changes[k] == changes[1..][k - 1];
      var rest :- SyncChanges(first.server, changes[1..]);
      ReferencesFollowRejections(first.server, s, changes[1..]);
      WritesAppend(first.calls, rest.calls);
      Ok(Step(first.value + rest.value, rest.server, first.calls + rest.calls))
  }

  /** What `initRepo` searches for: open changes of the bot on any branch. */
  const OpenChangesConfig := FindConfig("", Some(Open), None, None)

  /** The search of `initRepo`, cached. */
  function OpenChangesSearch(repo: string): (c: Call)
    ensures c.Search? && c.useCache
  {
    FindOwnPr(repo, OpenChangesConfig, false)
  }

  /**
   * `initRepo`, from the project check on: a project that is not ACTIVE is
   * rejected before anything else; then one search for the open changes
   * of the bot, and the reconciliation of each of them.
   */
  function InitRepo(s: Server, info: ProjectInfo, repo: string, open: seq<Change>): (r: Result<Step<seq<string>>, Error>)
    ensures info.state != Some("ACTIVE") ==> r == Err(RepositoryArchived)
    ensures r.Ok? <==> info.state == Some("ACTIVE") && forall k :: 0 <= k < |open| ==> Syncable(s, open[k])
    ensures r.Ok? ==> |r.value.calls| > 0 && r.value.calls[0] == OpenChangesSearch(repo)
    ensures r.Ok? ==> r.value.value == LocalBranches(s, open)
    ensures r.Ok? ==> Writes(r.value.calls) == Abandons(s, open)
  {
    var project :- GetProjectInfo(info);
    SearchAndSync(s, repo, open)
  }

  /** The part of `initRepo` after the project check: the search, then every change reconciled. */
  function SearchAndSync(s: Server, repo: string, open: seq<Change>): (r: Result<Step<seq<string>>, Error>)
    ensures r.Ok? <==> forall k :: 0 <= k < |open| ==> Syncable(s, open[k])
    ensures r.Ok? ==> |r.value.calls| > 0 && r.value.calls[0] == OpenChangesSearch(repo)
    ensures r.Ok? ==> r.value.value == LocalBranches(s, open)
    ensures r.Ok? ==> Writes(r.value.calls) == Abandons(s, open)
  {
    var synced :- SyncChanges(s, open);
    Ok(AfterRead(OpenChangesSearch(repo), synced))
  }

  /** Every rejected open change is abandoned, and every other one gets its local branch. */
  lemma {:induction false} RejectedAbandonedOthersKept(s: Server, changes: seq<Change>, k: nat)
    requires k < |changes| && changes[k].number in s.records
    ensures IsRejected(s, changes[k].number) ==> Abandon(changes[k].number) in Abandons(s, changes)
    ensures !IsRejected(s, changes[k].number) ==> LocalBranchName(changes[k]) in LocalBranches(s, changes)
    decreases k
  {
    if k > 0 {
      assert changes[1..][k - 1] == changes[k];
      RejectedAbandonedOthersKept(s, changes[1..], k - 1);
    }
  }

  /**
   * A change whose project has no Code-Review label counts as rejected:
   * `initRepo` abandons it rather than fetching it.
   */
  lemma UnlabelledChangeAbandoned(s: Server, c: Change)
    requires c.number in s.records && CodeReviewLabel(s.records[c.number].detail).None?
    ensures Abandons(s, [c]) == [Abandon(c.number)] && LocalBranches(s, [c]) == []
  {
  }
}

=== FILE: locate.dfy ===
/**
 * The lookups built on `findOwnPr`: picking a pull request for a branch,
 * listing the open ones, and folding the changes of a branch into a
 * traffic-light status. The search answer is an input: it comes from an
 * index that may lag behind the server.
 */
module Locate {
  import opened Wrappers
  import opened Text
  import opened Types
  import opened Utils
  import opened Remote
  import opened Query

  /** A read-only operation: its value and the calls it issued. */
  datatype Lookup<T> = Lookup(value: T, calls: seq<Call>)

  /** The last change of a search answer, taken as `pop` takes it, if there is one. */
  function Last(found: seq<Change>): (r: Option<Change>)
    ensures r.Some? <==> |found| > 0
    ensures r.Some? ==> r.value == found[|found| - 1]
  {
    if |found| == 0 then None else Some(found[|found| - 1])
  }

  /** The pull request of the last change of a search answer, if there is one. */
  function PickLast(found: seq<Change>): (r: Option<Pr>)
    ensures r.None? <==> |found| == 0
    ensures r.Some? ==> r.value == MapGerritChangeToPr(found[|found| - 1])
  {
    match Last(found)
    case None => None
    case Some(c) => Some(MapGerritChangeToPr(c))
  }

  /** `findPr`: one search, and the pull request of the last change found. */
  function FindPr(repo: string, cfg: FindConfig, refreshCache: bool, found: seq<Change>): (r: Lookup<Option<Pr>>)
    ensures r.calls == [FindOwnPr(repo, cfg, refreshCache)]
    ensures r.value.None? <==> |found| == 0
    ensures r.value.Some? ==> r.value.value.number == found[|found| - 1].number
  {
    Lookup(PickLast(found), [FindOwnPr(repo, cfg, refreshCache)])
  }

  /**
   * Only the last change of the answer matters: whatever comes before it,
   * the pull request found is the projection of that change.
   */
  lemma FindPrTakesLast(repo: string, cfg: FindConfig, refreshCache: bool, earlier: seq<Change>, c: Change)
    ensures FindPr(repo, cfg, refreshCache, earlier + [c]).value == Some(MapGerritChangeToPr(c))
  {
    assert (earlier + [c])[|earlier + [c]| - 1] == c;
  }

  /** The lookup of `getBranchPr`: open changes on the branch, cached. */
  function BranchConfig(branchName: string): FindConfig {
    FindConfig(branchName, Some(Open), None, None)
  }

  /**
   * `getBranchPr`: the same pick as `findPr` on open changes, and when a
   * change is found, a cached check of whether the branch was modified.
   */
  function GetBranchPr(repo: string, head: string, branchName: string, found: seq<Change>): (r: Lookup<Option<Pr>>)
    ensures |r.calls| == (if |found| == 0 then 1 else 2)
    ensures r.calls[0] == FindOwnPr(repo, BranchConfig(branchName), false) && r.calls[0].useCache
    ensures |found| > 0 ==> r.calls[1] == CheckBranchModified(branchName, head)
    ensures r.value.None? <==> |found| == 0
  {
    var search := FindOwnPr(repo, BranchConfig(branchName), false);
    match Last(found)
    case None => Lookup(None, [search])
    case Some(c) => Lookup(Some(MapGerritChangeToPr(c)), [search, CheckBranchModified(branchName, head)])
  }

  /** `getBranchPr` finds what an uncached-or-not `findPr` for open changes on the branch finds. */
  lemma GetBranchPrAgreesWithFindPr(repo: string, head: string, branchName: string, found: seq<Change>)
    ensures GetBranchPr(repo, head, branchName, found).value == FindPr(repo, BranchConfig(branchName), false, found).value
    ensures GetBranchPr(repo, head, branchName, found).calls[0] == FindPr(repo, BranchConfig(branchName), false, found).calls[0]
  {
  }

  /** The lookup of `getPrList`: an empty branch name and no state. */
  const ListConfig := FindConfig("", None, None, None)

  /** `getPrList`: one cached search, every change found projected, in order. */
  function GetPrList(repo: string, found: seq<Change>): (r: Lookup<seq<Pr>>)
    ensures r.calls == [FindOwnPr(repo, ListConfig, false)]
    ensures |r.value| == |found|
    ensures forall k :: 0 <= k < |found| ==> r.value[k] == MapGerritChangeToPr(found[k])
  {
    Lookup(seq(|found|, k requires 0 <= k < |found| => MapGerritChangeToPr(found[k])), [FindOwnPr(repo, ListConfig, false)])
  }

  /**
   * The list query matches every non-draft change of the bot in the
   * project, and ends with the empty branch term: `owner:self+project:<r>+-is:wip+`.
   */
  lemma PrListQuery(repo: string)
    ensures OwnPrQuery(repo, ListConfig) == "owner:self" + "+" + ("project:" + repo) + "+" + "-is:wip" + "+"
  {
    EmptyBranchTrailingPlus(repo, None);
    assert MapPrStateToGerritFilter(None) == "-is:wip";
  }

  /**
   * The lookup of `getBranchStatus` and `commitFiles`: open changes on the
   * branch before the marker, with the topic or hashtag of the name passed
   * on only when it is non-empty.
   */
  function TargetConfig(branchName: string): (cfg: FindConfig)
    ensures cfg.state == Some(Open)
    ensures SplitTopicAndBranch(Some(branchName)).None? ==> cfg == BranchConfig(branchName)
    ensures cfg.topic.Some? ==> |cfg.topic.value| > 0 && cfg.topic == SplitTopicAndBranch(Some(branchName)).value.topic
    ensures cfg.hashtag.Some? ==> |cfg.hashtag.value| > 0 && cfg.hashtag == SplitTopicAndBranch(Some(branchName)).value.hashtag
    ensures var t := SplitTopicAndBranch(Some(branchName));
            t.Some? ==> && cfg.branchName == t.value.branch
                        && (cfg.topic.Some? <==> Truthy(t.value.topic))
                        && (cfg.hashtag.Some? <==> Truthy(t.value.hashtag))
  {
    match SplitTopicAndBranch(Some(branchName))
    case None => FindConfig(branchName, Some(Open), None, None)
    case Some(t) =>
      FindConfig(t.branch, Some(Open),
                 if Truthy(t.topic) then t.topic else None,
                 if Truthy(t.hashtag) then t.hashtag else None)
  }

  /** The change reports a non-empty list of problems. */
  predicate HasProblems(c: Change) {
    c.problems.Some? && |c.problems.value| > 0
  }

  /** How many of the changes report `submittable` as exactly true. */
  function CountSubmittable(changes: seq<Change>): nat {
    if |changes| == 0 then 0
    else (if changes[0].submittable == Some(true) then 1 else 0) + CountSubmittable(changes[1..])
  }

  /** How many of the changes report a non-empty problem list. */
  function CountProblems(changes: seq<Change>): nat {
    if |changes| == 0 then 0
    else (if HasProblems(changes[0]) then 1 else 0) + CountProblems(changes[1..])
  }

  /** The submittable count reaches the length exactly when every change is submittable. */
  lemma {:induction false} CountSubmittableAll(changes: seq<Change>)
    ensures CountSubmittable(changes) <= |changes|
    ensures CountSubmittable(changes) == |changes| <==> forall k :: 0 <= k < |changes| ==> changes[k].submittable == Some(true)
  {
    if |changes| > 0 {
      CountSubmittableAll(changes[1..]);
      if CountSubmittable(changes) == |changes| {
        forall k | 0 <= k < |changes|
          ensures changes[k].submittable == Some(true)
        {
          if k > 0 {
            assert changes[k] == changes[1..][k - 1];
          }
        }
      }
      if forall k :: 0 <= k < |changes| ==> changes[k].submittable == Some(true) {
        forall k | 0 <= k < |changes[1..]|
          ensures changes[1..][k].submittable == Some(true)
        {
          assert changes[1..][k] == changes[k + 1];
        }
      }
    }
  }

  /** The problem count is positive exactly when some change has problems. */
  lemma {:induction false} CountProblemsSome(changes: seq<Change>)
    ensures CountProblems(changes) > 0 <==> exists k :: 0 <= k < |changes| && HasProblems(changes[k])
  {
    if |changes| > 0 {
      CountProblemsSome(changes[1..]);
      if CountProblems(changes[1..]) > 0 {
        var k :| 0 <= k < |changes[1..]| && HasProblems(changes[1..][k]);
        assert changes[k + 1] == changes[1..][k];
      }
      if exists k :: 0 <= k < |changes| && HasProblems(changes[k]) {
        var k :| 0 <= k < |changes| && HasProblems(changes[k]);
        if k > 0 {
          assert changes[1..][k - 1] == changes[k];
        }
      }
    }
  }

  /**
   * The status of a branch from its open changes, rules in order: none
   * found is yellow, all submittable is green (whatever their problems),
   * otherwise any problem is red, otherwise yellow.
   */
  function AggregateStatus(changes: seq<Change>): (r: BranchStatus)
    ensures r == Green <==> |changes| > 0 && forall k :: 0 <= k < |changes| ==> changes[k].submittable == Some(true)
    ensures r == Red <==>
              && (exists k :: 0 <= k < |changes| && changes[k].submittable != Some(true))
              && (exists k :: 0 <= k < |changes| && HasProblems(changes[k]))
    ensures |changes| == 0 ==> r == Yellow
  {
    CountSubmittableAll(changes);
    CountProblemsSome(changes);
    if |changes| > 0 then
      if CountSubmittable(changes) == |changes| then Green
      else if CountProblems(changes) > 0 then Red
      else Yellow
    else
      Yellow
  }

  /** `getBranchStatus`: one search that bypasses the cache, folded into a status. */
  function GetBranchStatus(repo: string, branchName: string, found: seq<Change>): (r: Lookup<BranchStatus>)
    ensures |r.calls| == 1 && r.calls[0].Search? && !r.calls[0].useCache
    ensures |found| == 0 ==> r.value == Yellow
    ensures r.value == AggregateStatus(found)
    ensures r.calls == [FindOwnPr(repo, TargetConfig(branchName), true)]
  {
    Lookup(AggregateStatus(found), [FindOwnPr(repo, TargetConfig(branchName), true)])
  }

  /** A name with a topic searches the branch before the marker for that topic. */
  lemma StatusOfTopicBranch(b: string, t: string)
    requires |t| > 0 && !Contains(b, TopicMarker) && !Contains(t, TopicMarker)
    ensures TargetConfig(b + TopicMarker + t) == FindConfig(b, Some(Open), Some(t), None)
  {
    TopicRoundTrip(b, t);
  }
}

=== FILE: query.dfy ===
/**
 * The search of `findOwnPr`: which terms it puts into the query, in which
 * order, which of them it drops, and the URL it finally requests.
 */
module Query {
  import opened Wrappers
  import opened Text
  import opened Types
  import opened Utils
  import opened Remote
  import Client

  /** The lookup parameters: a logical branch name, a state, and an explicit topic or hashtag. */
  datatype FindConfig = FindConfig(branchName: string, state: Option<PrState>, topic: Option<string>, hashtag: Option<string>)

  /**
   * A prefixed term guarded by the value's truthiness: `undefined` stays `undefined`,
   * the empty string stays the empty string, anything else gets the prefix.
   */
  function AndPrefix(prefix: string, x: Option<string>): (r: Option<string>)
    ensures r.None? <==> x.None?
    ensures r.Some? ==> (|r.value| == 0 <==> |x.value| == 0)
    ensures Truthy(x) ==> r.value == prefix + x.value
  {
    match x
    case None => None
    case Some(v) => if |v| == 0 then Some("") else Some(prefix + v)
  }

  /** The target the lookup resolves: the split branch name, or the configuration itself when the name has no marker. */
  function ResolveTarget(cfg: FindConfig): (t: BranchTarget)
    ensures SplitTopicAndBranch(Some(cfg.branchName)).None? ==> t == BranchTarget(cfg.branchName, cfg.topic, cfg.hashtag)
    ensures SplitTopicAndBranch(Some(cfg.branchName)).Some? ==> t == SplitTopicAndBranch(Some(cfg.branchName)).value
  {
    SplitTopicAndBranch(Some(cfg.branchName)).GetOr(BranchTarget(cfg.branchName, cfg.topic, cfg.hashtag))
  }

  /** The topic searched for: an explicit topic wins over the one parsed from the branch name. */
  function EffectiveTopic(cfg: FindConfig): (t: Option<string>)
    ensures cfg.topic.Some? ==> t == cfg.topic
    ensures cfg.topic.None? ==> t == ResolveTarget(cfg).topic
  {
    cfg.topic.OrElse(ResolveTarget(cfg).topic)
  }

  /** The hashtag searched for: an explicit hashtag wins over the one parsed from the branch name. */
  function EffectiveHashtag(cfg: FindConfig): (h: Option<string>)
    ensures cfg.hashtag.Some? ==> h == cfg.hashtag
    ensures cfg.hashtag.None? ==> h == ResolveTarget(cfg).hashtag
  {
    cfg.hashtag.OrElse(ResolveTarget(cfg).hashtag)
  }

  /** The branch term: `branch:<b>`, or the empty string for an empty branch; it is never dropped. */
  function BranchTerm(cfg: FindConfig): (r: string)
    ensures |r| == 0 <==> |ResolveTarget(cfg).branch| == 0
    ensures |ResolveTarget(cfg).branch| > 0 ==> r == "branch:" + ResolveTarget(cfg).branch
  {
    AndPrefix("branch:", Some(ResolveTarget(cfg).branch)).value
  }

  /** A term as a list of at most one element: none when it is undefined. */
  function Optional(x: Option<string>): (r: seq<string>)
    ensures x.None? ==> r == []
    ensures x.Some? ==> r == [x.value]
  {
    match x
    case None => []
    case Some(v) => [v]
  }

  /**
   * The query terms in the fixed order owner, project, state, topic,
   * hashtag, branch, with the undefined ones filtered out. Owner, project,
   * state and branch are always strings, so only the topic and hashtag
   * terms can be dropped; an empty term is a string and is kept.
   */
  function OwnPrTerms(repo: string, cfg: FindConfig): (terms: seq<string>)
    ensures 4 <= |terms| <= 6
    ensures terms[0] == "owner:self" && terms[1] == "project:" + repo
    ensures terms[2] == MapPrStateToGerritFilter(cfg.state)
    ensures terms[|terms| - 1] == BranchTerm(cfg)
    ensures |terms| == 4 + |Optional(EffectiveTopic(cfg))| + |Optional(EffectiveHashtag(cfg))|
    ensures terms[3..|terms| - 1] == Optional(AndPrefix("topic:", EffectiveTopic(cfg))) + Optional(AndPrefix("hashtag:", EffectiveHashtag(cfg)))
  {
    ["owner:self", "project:" + repo, MapPrStateToGerritFilter(cfg.state)]
    + Optional(AndPrefix("topic:", EffectiveTopic(cfg)))
    + Optional(AndPrefix("hashtag:", EffectiveHashtag(cfg)))
    + [BranchTerm(cfg)]
  }

  /** The details a `findOwnPr` search asks for. */
  const OwnPrDetails: seq<string> := ["SUBMITTABLE", "CHECK", "CURRENT_ACTIONS", "CURRENT_REVISION"]

  /** The option suffix of a `findOwnPr` search. */
  const OwnPrOptions := Client.PrefixEach("&o=", OwnPrDetails)

  /** The suffix spelled out: one `&o=` option per detail, four of them, in declared order. */
  lemma OwnPrOptionsSpelled()
    ensures OwnPrOptions == "&o=" + "SUBMITTABLE" + ("&o=" + "CHECK" + ("&o=" + "CURRENT_ACTIONS" + ("&o=" + "CURRENT_REVISION")))
  {
    var d3 := ["CURRENT_REVISION"];
    var d2 := ["CURRENT_ACTIONS"] + d3;
    var d1 := ["CHECK"] + d2;
    assert ["SUBMITTABLE"] + d1 == OwnPrDetails;
    assert d3 == ["CURRENT_REVISION"] + [];
    Client.PrefixEachCons("&o=", "CURRENT_REVISION", []);
    Client.PrefixEachCons("&o=", "CURRENT_ACTIONS", d3);
    Client.PrefixEachCons("&o=", "CHECK", d2);
    Client.PrefixEachCons("&o=", "SUBMITTABLE", d1);
  }

  /** No term holds a `+`. */
  predicate PlusFree(terms: seq<string>) {
    forall k :: 0 <= k < |terms| ==> !Contains(terms[k], "+")
  }

  /**
   * The query string: the terms joined by `+`. When no term holds a `+`,
   * the query splits back into exactly its terms: every defined term is a
   * segment of its own, the empty ones included.
   */
  function OwnPrQuery(repo: string, cfg: FindConfig): (q: string)
    ensures PlusFree(OwnPrTerms(repo, cfg)) ==> SplitOn(q, "+") == OwnPrTerms(repo, cfg)
  {
    var terms := OwnPrTerms(repo, cfg);
    if PlusFree(terms) then
      SplitJoin(terms, "+");
      Join(terms, "+")
    else
      Join(terms, "+")
  }

  /** The search `findOwnPr` issues: cached unless a refresh is asked for. */
  function FindOwnPr(repo: string, cfg: FindConfig, refreshCache: bool): (c: Call)
    ensures c.Search? && c.useCache == !refreshCache
  {
    Search(Client.SearchPrefix + OwnPrQuery(repo, cfg) + OwnPrOptions, !refreshCache)
  }

  /**
   * The URL of the search is the search prefix, then the query, then the
   * `findOwnPr` options: each part can be cut back out of the URL.
   */
  lemma FindOwnPrUrl(repo: string, cfg: FindConfig, refreshCache: bool)
    ensures var url := FindOwnPr(repo, cfg, refreshCache).url;
            && |url| == |Client.SearchPrefix| + |OwnPrQuery(repo, cfg)| + |OwnPrOptions|
            && url[..|Client.SearchPrefix|] == Client.SearchPrefix
            && url[|Client.SearchPrefix|..|url| - |OwnPrOptions|] == OwnPrQuery(repo, cfg)
            && url[|url| - |OwnPrOptions|..] == OwnPrOptions
  {
    var url := FindOwnPr(repo, cfg, refreshCache).url;
    assert url[|Client.SearchPrefix|..|url| - |OwnPrOptions|] == OwnPrQuery(repo, cfg);
    Client.ConcatEnds(Client.SearchPrefix, OwnPrQuery(repo, cfg), OwnPrOptions);
  }

  /**
   * An empty branch name with no topic or hashtag keeps its empty branch
   * term: the query ends in `+`, with an empty last segment.
   */
  lemma EmptyBranchTrailingPlus(repo: string, state: Option<PrState>)
    ensures var cfg := FindConfig("", state, None, None);
            OwnPrQuery(repo, cfg) == "owner:self" + "+" + ("project:" + repo) + "+" + MapPrStateToGerritFilter(state) + "+"
  {
    var cfg := FindConfig("", state, None, None);
    QueryJoinsTerms(repo, cfg);
    EmptyBranchTerms(repo, state);
    JoinEmptyLast("owner:self", "project:" + repo, MapPrStateToGerritFilter(state), "+");
  }

  /** Whatever the terms hold, the query is the terms joined by `+`. */
  lemma QueryJoinsTerms(repo: string, cfg: FindConfig)
    ensures OwnPrQuery(repo, cfg) == Join(OwnPrTerms(repo, cfg), "+")
  {
  }

  /** The terms of an empty branch name with no topic or hashtag: owner, project, state and an empty branch term. */
  lemma EmptyBranchTerms(repo: string, state: Option<PrState>)
    ensures OwnPrTerms(repo, FindConfig("", state, None, None)) == ["owner:self", "project:" + repo, MapPrStateToGerritFilter(state), ""]
  {
    assert !Contains("", TopicMarker) && !Contains("", HashtagMarker);
  }

  /** Three parts and an empty one joined by a separator: the separator ends the result. */
  lemma JoinEmptyLast(a: string, b: string, c: string, sep: string)
    ensures Join([a, b, c, ""], sep) == a + sep + b + sep + c + sep
  {
    assert [a, b, c, ""][1..] == [b, c, ""];
    assert [b, c, ""][1..] == [c, ""];
    assert [c, ""][1..] == [""];
    assert Join([c, ""], sep) == c + sep;
    assert Join([b, c, ""], sep) == b + sep + (c + sep);
    assert Join([a, b, c, ""], sep) == a + sep + (b + sep + (c + sep));
  }

  /** A plain branch name with no topic or hashtag gives four terms, the last `branch:<b>`. */
  lemma PlainBranchTerms(repo: string, b: string, state: Option<PrState>)
    requires |b| > 0 && !Contains(b, TopicMarker) && !Contains(b, HashtagMarker)
    ensures OwnPrTerms(repo, FindConfig(b, state, None, None))
            == ["owner:self", "project:" + repo, MapPrStateToGerritFilter(state), "branch:" + b]
  {
  }

  /**
   * A branch name that carries a topic searches for that topic on the
   * branch before the marker, unless an explicit topic overrides it.
   */
  lemma TopicBranchTerms(repo: string, b: string, t: string, state: Option<PrState>, explicit: Option<string>)
    requires |b| > 0 && |t| > 0
    requires !Contains(b, TopicMarker) && !Contains(t, TopicMarker)
    requires explicit.None? || |explicit.value| > 0
    ensures OwnPrTerms(repo, FindConfig(b + TopicMarker + t, state, explicit, None))
            == ["owner:self", "project:" + repo, MapPrStateToGerritFilter(state),
                "topic:" + explicit.GetOr(t), "branch:" + b]
  {
    TopicRoundTrip(b, t);
  }

  /** A branch name that carries a hashtag searches for that hashtag on the branch before the marker. */
  lemma HashtagBranchTerms(repo: string, b: string, h: string, state: Option<PrState>)
    requires |b| > 0 && |h| > 0
    requires !Contains(b, TopicMarker) && !Contains(h, TopicMarker)
    requires !Contains(b, HashtagMarker) && !Contains(h, HashtagMarker)
    ensures OwnPrTerms(repo, FindConfig(b + HashtagMarker + h, state, None, None))
            == ["owner:self", "project:" + repo, MapPrStateToGerritFilter(state), "hashtag:" + h, "branch:" + b]
  {
    HashtagRoundTrip(b, h);
  }

  /** An explicit empty topic is kept as an empty segment rather than dropped. */
  lemma EmptyTopicKept(repo: string, cfg: FindConfig)
    requires cfg.topic == Some("")
    ensures OwnPrTerms(repo, cfg)[3] == ""
  {
  }
}

=== FILE: remote.dfy ===
/**
 * The collaborators the adapter talks to, abstracted: the review server as a
 * state (per change: its detail and its message list) that accepts writes,
 * and a log of every REST, git and timer call the adapter issues, in order.
 * The search index is not part of this state: it lags behind the server, so
 * every search result is an input of the operation that searches.
 */
module Remote {
  import opened Wrappers
  import opened Types

  /** A commit message as the git layer accepts it: one string or a list of lines. */
  datatype CommitMessage = Single(text: string) | Lines(lines: seq<string>) {
    /** The message as a list of lines: a single string is one line. */
    function AsLines(): seq<string> {
      match this
      case Single(t) => [t]
      case Lines(ls) => ls
    }
  }

  /** One call issued by the adapter. */
  datatype Call =
    | Search(url: string, useCache: bool)                    // GET a/changes/?q=…
    | GetChange(url: string)                                  // GET a/changes/<n>?o=…, cacheable
    | GetDetail(change: int)                                  // GET a/changes/<n>/detail, uncached
    | GetMessages(change: int)                                // GET a/changes/<n>/messages, uncached
    | PostMessage(change: int, message: string, tag: string)  // POST …/revisions/current/review
    | PostLabel(change: int, name: string, value: int)        // POST …/revisions/current/review
    | Abandon(change: int)                                    // POST a/changes/<n>/abandon
    | Submit(change: int, status: string)                     // POST a/changes/<n>/submit, answered with the change's status
    | Delay(ms: nat)                                          // a timer wait
    | Fetch(refSpec: string)                                  // git fetch
    | RegisterBranch(name: string)                            // git branch cache
    | CheckBranchModified(name: string, head: string)         // git log, cached
    | PrepareCommit(commit: CommitMessage)                    // git commit, not pushed
    | DiffFetched                                             // git diff HEAD FETCH_HEAD
    | PushCommit(commit: CommitMessage)                       // git push to refs/for/<branch>
    | CommitAndPush(commit: CommitMessage, platformCommit: bool)
  {
    /** The call changes state on the review server. */
    predicate IsServerWrite() {
      PostMessage? || PostLabel? || Abandon? || Submit?
    }

    /** The call sends commits to the server. */
    predicate IsPush() {
      PushCommit? || CommitAndPush?
    }
  }

  /** The server-side writes among `calls`, in order. */
  function Writes(calls: seq<Call>): (w: seq<Call>)
    ensures |w| <= |calls|
  {
    if |calls| == 0 then []
    else (if calls[0].IsServerWrite() then [calls[0]] else []) + Writes(calls[1..])
  }

  /** The writes are exactly the calls that are server writes. */
  lemma {:induction false} WritesMembers(calls: seq<Call>)
    ensures forall c :: c in Writes(calls) <==> c in calls && c.IsServerWrite()
  {
    if |calls| > 0 {
      WritesMembers(calls[1..]);
      assert calls == [calls[0]] + calls[1..];
    }
  }

  lemma WritesSingle(c: Call)
    ensures Writes([c]) == if c.IsServerWrite() then [c] else []
  {
    assert [c][1..] == [];
  }

  /** The writes of two call sequences in a row are the writes of the first, then those of the second. */
  lemma {:induction false} WritesAppend(a: seq<Call>, b: seq<Call>)
    ensures Writes(a + b) == Writes(a) + Writes(b)
  {
    if |a| == 0 {
      assert a + b == b;
    } else {
      var head := if a[0].IsServerWrite() then [a[0]] else [];
      assert (a + b)[0] == a[0];
      assert (a + b)[1..] == a[1..] + b;
      WritesAppend(a[1..], b);
      assert Writes(a + b) == head + (Writes(a[1..]) + Writes(b));
      assert Writes(a) == head + Writes(a[1..]);
      assert head + (Writes(a[1..]) + Writes(b)) == (head + Writes(a[1..])) + Writes(b);
    }
  }

  /** A call that is not a server write, issued first, adds no writes. */
  lemma WritesAfterRead(c: Call, calls: seq<Call>)
    requires !c.IsServerWrite()
    ensures Writes([c] + calls) == Writes(calls)
  {
    assert ([c] + calls)[1..] == calls;
  }

  /** Calls none of which is a server write have no writes. */
  lemma WritesNone(calls: seq<Call>)
    requires forall k :: 0 <= k < |calls| ==> !calls[k].IsServerWrite()
    ensures Writes(calls) == []
  {
  }

  /** A message of a change, with the tag it was posted with. */
  datatype Message = Message(message: string, tag: Option<string>)

  /** What the server holds for one change. */
  datatype Record = Record(detail: Change, messages: seq<Message>)

  /** The review server: the account the adapter acts as, and the changes by number. */
  datatype Server = Server(self: Account, records: map<int, Record>)

  /** A completed operation: its value, the server afterwards, and the calls it issued. */
  datatype Step<T> = Step(value: T, server: Server, calls: seq<Call>)

  /** `step` after a call that is not a server write: the same value, server and writes. */
  function AfterRead<T>(c: Call, step: Step<T>): (r: Step<T>)
    requires !c.IsServerWrite()
    ensures r.value == step.value && r.server == step.server
    ensures |r.calls| > 0 && r.calls[0] == c && r.calls[1..] == step.calls
    ensures Writes(r.calls) == Writes(step.calls)
  {
    WritesAfterRead(c, step.calls);
    Step(step.value, step.server, [c] + step.calls)
  }

  /** GET a/changes/<n>/detail. */
  function Detail(s: Server, n: int): (r: Result<Change, Error>)
    ensures r.Ok? <==> n in s.records
  {
    if n in s.records then Ok(s.records[n].detail) else Err(NotFound(n))
  }

  /** GET a/changes/<n>/messages. */
  function Messages(s: Server, n: int): (r: Result<seq<Message>, Error>)
    ensures r.Ok? <==> n in s.records
  {
    if n in s.records then Ok(s.records[n].messages) else Err(NotFound(n))
  }

  /** A vote on label `name`: +2 on a label the change has marks it approved by `voter`. */
  function Vote(c: Change, name: string, value: int, voter: Account): (r: Change)
    ensures r.labels.Some? <==> c.labels.Some?
    ensures r.labels.Some? ==> r.labels.value.Keys == c.labels.value.Keys
    ensures value == 2 && c.labels.Some? && name in c.labels.value ==> r.labels.value[name].approved == Some(voter)
  {
    if value == 2 && c.labels.Some? && name in c.labels.value then
      var info := c.labels.value[name];
      c.(labels := Some(c.labels.value[name := info.(approved := Some(voter))]))
    else
      c
  }

  /**
   * The server after it accepts a write. A write to an unknown change is
   * answered with 404 and changes nothing; other changes are never touched.
   */
  function Apply(s: Server, c: Call): (r: Result<Server, Error>)
    requires c.IsServerWrite()
    ensures r.Ok? <==> c.change in s.records
    ensures r.Ok? ==> r.value.self == s.self && r.value.records.Keys == s.records.Keys
    ensures r.Ok? ==> forall n :: n in s.records && n != c.change ==> r.value.records[n] == s.records[n]
    ensures r.Ok? && c.PostMessage? ==>
              r.value.records[c.change].messages == s.records[c.change].messages + [Message(c.message, Some(c.tag))]
    ensures r.Ok? && !c.PostMessage? ==> r.value.records[c.change].messages == s.records[c.change].messages
    ensures r.Ok? && c.PostMessage? ==> r.value.records[c.change].detail == s.records[c.change].detail
    ensures r.Ok? && c.Submit? ==> r.value.records[c.change].detail == s.records[c.change].detail.(status := c.status)
    ensures r.Ok? && c.Abandon? ==> r.value.records[c.change].detail.status == "ABANDONED"
    ensures r.Ok? && c.Abandon? ==> r.value.records[c.change].detail.labels == s.records[c.change].detail.labels
  {
    if c.change !in s.records then
      Err(NotFound(c.change))
    else
      var rec := s.records[c.change];
      var rec' :=
        match c
        case PostMessage(_, text, tag) => rec.(messages := rec.messages + [Message(text, Some(tag))])
        case PostLabel(_, name, value) => rec.(detail := Vote(rec.detail, name, value, s.self))
        case Abandon(_) => rec.(detail := rec.detail.(status := "ABANDONED"))
        case Submit(_, status) => rec.(detail := rec.detail.(status := status))
        case _ => rec;
      Ok(s.(records := s.records[c.change := rec']))
  }
}

=== FILE: review.dfy ===
/**
 * The check-then-write operations of the adapter on one change: posting
 * the pull-request body as a message, voting Code-Review +2, commenting,
 * abandoning on close, and submitting. Each reads the server first and
 * writes only what is missing, so repeating it writes nothing more.
 */
module Review {
  import opened Wrappers
  import opened Text
  import opened Types
  import opened Utils
  import opened Remote
  import opened Client

  /** Some message of the list contains `needle`. */
  predicate SomeMessageHolds(msgs: seq<Message>, needle: string) {
    exists k :: 0 <= k < |msgs| && Contains(msgs[k].message, needle)
  }

  /** Whether some message, scanned in order, contains `needle`. */
  function FindMessage(msgs: seq<Message>, needle: string): (found: bool)
    ensures found <==> SomeMessageHolds(msgs, needle)
  {
    if |msgs| == 0 then false
    else if Contains(msgs[0].message, needle) then true
    else
      var rest := FindMessage(msgs[1..], needle);
      assert forall k :: 0 < k < |msgs| ==> msgs[k] == msgs[1..][k - 1];
      rest
  }

  /** The change exists and one of its messages contains the trimmed `body`. */
  predicate HasMessage(s: Server, n: int, body: string) {
    n in s.records && SomeMessageHolds(s.records[n].messages, Trim(body))
  }

  /**
   * `checkForExistingMessage`: one uncached read of the messages; true when
   * one of them contains the body with surrounding white space trimmed.
   */
  function CheckForExistingMessage(s: Server, n: int, body: string): (r: Result<Step<bool>, Error>)
    ensures r.Ok? <==> n in s.records
    ensures r.Ok? ==> r.value.server == s && r.value.calls == [GetMessages(n)]
    ensures r.Ok? ==> (r.value.value <==> HasMessage(s, n, body))
  {
    var msgs :- Messages(s, n);
    Ok(Step(FindMessage(msgs, Trim(body)), s, [GetMessages(n)]))
  }

  /** A message that is the body itself counts as the body being there. */
  lemma PostedBodyIsFound(msgs: seq<Message>, body: string, tag: Option<string>)
    ensures SomeMessageHolds(msgs + [Message(body, tag)], Trim(body))
  {
    var all := msgs + [Message(body, tag)];
    assert all[|msgs|].message == body;
  }

  /** Adding a message keeps every message found before. */
  lemma FoundStaysFound(msgs: seq<Message>, m: Message, needle: string)
    requires SomeMessageHolds(msgs, needle)
    ensures SomeMessageHolds(msgs + [m], needle)
  {
    var k :| 0 <= k < |msgs| && Contains(msgs[k].message, needle);
    assert (msgs + [m])[k] == msgs[k];
  }

  /** Which field of the Code-Review label is asked about. */
  datatype LabelResult = Approved | Rejected

  /**
   * `checkForCodeReviewLabel`: one uncached read of the change detail;
   * true when the change has no Code-Review label at all, or when the
   * asked-about field of that label is set.
   */
  function CheckForCodeReviewLabel(s: Server, n: int, which: LabelResult): (r: Result<Step<bool>, Error>)
    ensures r.Ok? <==> n in s.records
    ensures r.Ok? ==> r.value.server == s && r.value.calls == [GetDetail(n)]
    ensures r.Ok? ==> (r.value.value <==>
              CodeReviewLabel(s.records[n].detail).None?
              || (which == Approved && CodeReviewLabel(s.records[n].detail).value.approved.Some?)
              || (which == Rejected && CodeReviewLabel(s.records[n].detail).value.rejected.Some?))
  {
    var detail :- Detail(s, n);
    var review := CodeReviewLabel(detail);
    var set_ := match which case Approved => review.Some? && review.value.approved.Some?
                             case Rejected => review.Some? && review.value.rejected.Some?;
    Ok(Step(review.None? || set_, s, [GetDetail(n)]))
  }

  /**
   * The approval check of the adapter and the one of the client agree: both
   * count a change without a Code-Review label as approved.
   */
  lemma ApprovedCheckAgrees(s: Server, n: int)
    requires n in s.records
    ensures CheckForCodeReviewLabel(s, n, Approved).value.value == CheckIfApproved(s.records[n].detail)
  {
  }

  /** A label without any vote asked about counts as rejected only when the project has no Code-Review label. */
  lemma UnlabelledCountsAsRejected(s: Server, n: int)
    requires n in s.records && CodeReviewLabel(s.records[n].detail).None?
    ensures CheckForCodeReviewLabel(s, n, Rejected).value.value
    ensures CheckForCodeReviewLabel(s, n, Approved).value.value
  {
  }

  /** The first step of `internalChangeUpdate`: the message post, when the body is not there yet. */
  function PostBodyIfMissing(s: Server, n: int, body: string): (r: Result<Step<()>, Error>)
    ensures r.Ok? <==> n in s.records
    ensures r.Err? ==> r.error == NotFound(n)
    ensures r.Ok? ==> |r.value.calls| > 0 && r.value.calls[0] == GetMessages(n)
    ensures r.Ok? ==> Writes(r.value.calls) == if HasMessage(s, n, body) then [] else [PostMessage(n, body, MessageTag)]
    ensures r.Ok? ==> HasMessage(r.value.server, n, body)
    ensures r.Ok? ==> r.value.server.records.Keys == s.records.Keys && r.value.server.self == s.self
    ensures r.Ok? ==> r.value.server.records[n].detail == s.records[n].detail
    ensures r.Ok? ==> forall m :: m in s.records && m != n ==> r.value.server.records[m] == s.records[m]
  {
    var exists_ :- CheckForExistingMessage(s, n, body);
    WritesSingle(GetMessages(n));
    if exists_.value then
      Ok(Step((), s, [GetMessages(n)]))
    else
      var post := PostMessage(n, body, MessageTag);
      match Apply(s, post)
      case Err(e) => Err(e)
      case Ok(s') =>
        PostedBodyIsFound(s.records[n].messages, body, Some(MessageTag));
        WritesSingle(post);
        WritesAppend([GetMessages(n)], [post]);
        Ok(Step((), s', [GetMessages(n), post]))
  }

  /** The second step of `internalChangeUpdate`: the +2 vote, when the change does not count as approved. */
  function VoteIfUnapproved(s: Server, n: int): (r: Result<Step<()>, Error>)
    ensures r.Ok? <==> n in s.records
    ensures r.Err? ==> r.error == NotFound(n)
    ensures r.Ok? ==> |r.value.calls| > 0 && r.value.calls[0] == GetDetail(n)
    ensures r.Ok? ==> Writes(r.value.calls) == if CheckIfApproved(s.records[n].detail) then [] else [PostLabel(n, CodeReview, 2)]
    ensures r.Ok? ==> n in r.value.server.records && CheckIfApproved(r.value.server.records[n].detail)
    ensures r.Ok? ==> r.value.server.records.Keys == s.records.Keys && r.value.server.self == s.self
    ensures r.Ok? ==> r.value.server.records[n].messages == s.records[n].messages
    ensures r.Ok? ==> forall m :: m in s.records && m != n ==> r.value.server.records[m] == s.records[m]
  {
    var approved :- CheckForCodeReviewLabel(s, n, Approved);
    WritesSingle(GetDetail(n));
    if approved.value then
      Ok(Step((), s, [GetDetail(n)]))
    else
      var vote := PostLabel(n, CodeReview, 2);
      match Apply(s, vote)
      case Err(e) => Err(e)
      case Ok(s') =>
        WritesSingle(vote);
        WritesAppend([GetDetail(n)], [vote]);
        Ok(Step((), s', [GetDetail(n), vote]))
  }

  /**
   * The writes `internalChangeUpdate` makes on change `n`: the body when no
   * message holds it yet, then the Code-Review +2 when the change is not
   * yet approved.
   */
  function UpdateWrites(s: Server, n: int, body: string): seq<Call>
    requires n in s.records
  {
    (if HasMessage(s, n, body) then [] else [PostMessage(n, body, MessageTag)])
    + (if CheckIfApproved(s.records[n].detail) then [] else [PostLabel(n, CodeReview, 2)])
  }

  /**
   * `internalChangeUpdate`: post the body unless a message already holds
   * it, then vote +2 unless the change already counts as approved.
   * Afterwards both hold, and no other change is touched.
   */
  function InternalChangeUpdate(s: Server, n: int, body: string): (r: Result<Step<()>, Error>)
    ensures r.Ok? <==> n in s.records
    ensures r.Err? ==> r.error == NotFound(n)
    ensures r.Ok? ==> Writes(r.value.calls) == UpdateWrites(s, n, body)
    ensures r.Ok? ==> HasMessage(r.value.server, n, body) && CheckIfApproved(r.value.server.records[n].detail)
    ensures r.Ok? ==> r.value.server.records.Keys == s.records.Keys && r.value.server.self == s.self
    ensures r.Ok? ==> forall m :: m in s.records && m != n ==> r.value.server.records[m] == s.records[m]
  {
    var first :- PostBodyIfMissing(s, n, body);
    match VoteIfUnapproved(first.server, n)
    case Err(e) => Err(e)
    case Ok(second) =>
      WritesAppend(first.calls, second.calls);
      Ok(Step((), second.server, first.calls + second.calls))
  }

  /** Running the update again on its own result writes nothing and changes nothing. */
  lemma InternalChangeUpdateIdempotent(s: Server, n: int, body: string)
    requires n in s.records
    ensures var r := InternalChangeUpdate(s, n, body);
            && r.Ok?
            && var again := InternalChangeUpdate(r.value.server, n, body);
               again.Ok? && Writes(again.value.calls) == [] && again.value.server == r.value.server
  {
    var s1 := InternalChangeUpdate(s, n, body).value.server;
    var first := PostBodyIfMissing(s1, n, body).value;
    assert first.server == s1;
    var second := VoteIfUnapproved(s1, n).value;
    assert second.server == s1;
  }

  /**
   * `ensureComment`: post the content unless a message already holds it;
   * the answer is always true, and afterwards the content is there.
   */
  function EnsureComment(s: Server, n: int, content: string): (r: Result<Step<bool>, Error>)
    ensures r.Ok? <==> n in s.records
    ensures r.Ok? ==> r.value.value
    ensures r.Ok? ==> Writes(r.value.calls) == if HasMessage(s, n, content) then [] else [PostMessage(n, content, MessageTag)]
    ensures r.Ok? ==> HasMessage(r.value.server, n, content)
  {
    var posted :- PostBodyIfMissing(s, n, content);
    Ok(Step(true, posted.server, posted.calls))
  }

  /** Commenting twice posts once. */
  lemma EnsureCommentIdempotent(s: Server, n: int, content: string)
    requires n in s.records
    ensures var r := EnsureComment(s, n, content);
            && r.Ok?
            && var again := EnsureComment(r.value.server, n, content);
               again.Ok? && Writes(again.value.calls) == [] && again.value.server == r.value.server
  {
    var s1 := EnsureComment(s, n, content).value.server;
    assert PostBodyIfMissing(s1, n, content).value.server == s1;
  }

  /** The second step of `updatePr`: abandon the change when the new state is Closed. */
  function AbandonIfClosed(s: Server, n: int, state: Option<PrState>): (r: Result<Step<()>, Error>)
    ensures r.Ok? <==> n in s.records || state != Some(Closed)
    ensures r.Ok? ==> Writes(r.value.calls) == if state == Some(Closed) then [Abandon(n)] else []
    ensures r.Ok? ==> r.value.server.records.Keys == s.records.Keys
    ensures r.Ok? && state == Some(Closed) ==> r.value.server.records[n].detail.status == "ABANDONED"
    ensures r.Ok? ==> forall m :: m in s.records ==> r.value.server.records[m].messages == s.records[m].messages
    ensures r.Ok? ==> forall m :: m in s.records ==> r.value.server.records[m].detail.labels == s.records[m].detail.labels
  {
    if state == Some(Closed) then
      var abandon := Abandon(n);
      var s' :- Apply(s, abandon);
      WritesSingle(abandon);
      Ok(Step((), s', [abandon]))
    else
      Ok(Step((), s, []))
  }

  /**
   * The body part of `updatePr`: for a non-empty body, the update posts the
   * body and votes +2 where missing, and never abandons; otherwise nothing.
   */
  function UpdateBody(s: Server, n: int, body: Option<string>): (r: Result<Step<()>, Error>)
    ensures r.Ok? <==> n in s.records || !Truthy(body)
    ensures r.Ok? ==> r.value.server.records.Keys == s.records.Keys
    ensures !Truthy(body) ==> r == Ok(Step((), s, []))
    ensures r.Ok? && Truthy(body) ==> HasMessage(r.value.server, n, body.value)
    ensures r.Ok? && Truthy(body) ==> CheckIfApproved(r.value.server.records[n].detail)
    ensures r.Ok? && Truthy(body) ==> Writes(r.value.calls) == UpdateWrites(s, n, body.value)
    ensures r.Ok? ==> Abandon(n) !in Writes(r.value.calls)
  {
    if Truthy(body) then
      UpdateNeverAbandons(s, n, body.value);
      InternalChangeUpdate(s, n, body.value)
    else
      Ok(Step((), s, []))
  }

  /** The update posts a message or a vote, never an abandon. */
  lemma UpdateNeverAbandons(s: Server, n: int, body: string)
    ensures var r := InternalChangeUpdate(s, n, body);
            r.Ok? ==> forall w :: w in Writes(r.value.calls) ==> w.PostMessage? || w.PostLabel?
  {
    var r := InternalChangeUpdate(s, n, body);
    if r.Ok? {
      var posted: seq<Call> := if HasMessage(s, n, body) then [] else [PostMessage(n, body, MessageTag)];
      var voted: seq<Call> := if CheckIfApproved(s.records[n].detail) then [] else [PostLabel(n, CodeReview, 2)];
      assert Writes(r.value.calls) == UpdateWrites(s, n, body) == posted + voted;
      forall w: Call | w in posted + voted
        ensures w.PostMessage? || w.PostLabel?
      {
        assert w in posted || w in voted;
      }
    }
  }

  /**
   * `updatePr`: the body goes through `internalChangeUpdate` only when it
   * is a non-empty string, which posts it and votes +2 where missing; the
   * change is abandoned only when the new state is Closed.
   */
  function UpdatePr(s: Server, n: int, body: Option<string>, state: Option<PrState>): (r: Result<Step<()>, Error>)
    ensures r.Ok? <==> n in s.records || (!Truthy(body) && state != Some(Closed))
    ensures r.Ok? ==> r.value.server.records.Keys == s.records.Keys
    ensures r.Ok? ==> (Abandon(n) in Writes(r.value.calls) <==> state == Some(Closed))
    ensures r.Ok? && !Truthy(body) ==> Writes(r.value.calls) == if state == Some(Closed) then [Abandon(n)] else []
    ensures r.Ok? && Truthy(body) ==>
              Writes(r.value.calls) == UpdateWrites(s, n, body.value) + if state == Some(Closed) then [Abandon(n)] else []
    ensures r.Ok? && state == Some(Closed) ==> r.value.server.records[n].detail.status == "ABANDONED"
    ensures r.Ok? && Truthy(body) ==> HasMessage(r.value.server, n, body.value)
    ensures r.Ok? && Truthy(body) ==> CheckIfApproved(r.value.server.records[n].detail)
  {
    var updated :- UpdateBody(s, n, body);
    var closed :- AbandonIfClosed(updated.server, n, state);
    WritesAppend(updated.calls, closed.calls);
    Ok(Step((), closed.server, updated.calls + closed.calls))
  }

  /**
   * `mergePr`: one submit, which leaves the change in the status the server
   * answers with; the answer is whether that status is MERGED, the status
   * that maps to Merged.
   */
  function MergePr(s: Server, n: int, answered: string): (r: Result<Step<bool>, Error>)
    ensures r.Ok? <==> n in s.records
    ensures r.Ok? ==> r.value.calls == [Submit(n, answered)]
    ensures r.Ok? ==> r.value.server.records.Keys == s.records.Keys
    ensures r.Ok? ==> r.value.server.records[n].detail.status == answered
    ensures r.Ok? ==> (r.value.value <==> MapGerritChangeStateToPrState(r.value.server.records[n].detail.status) == Merged)
    ensures r.Ok? ==> r.value.server.records[n].messages == s.records[n].messages
  {
    var s' :- Apply(s, Submit(n, answered));
    Ok(Step(answered == "MERGED", s', [Submit(n, answered)]))
  }
}

=== FILE: text.dfy ===
/**
 * The JavaScript string operations the adapter relies on, on `seq<char>`:
 * `includes`, the first-match search behind `split`, `split` by a literal
 * separator, `join`, `trim`, and the decimal rendering of a number inside a
 * template string.
 */
module Text {
  import opened Wrappers

  /** `t` occurs in `s` starting at index `i`. */
  predicate OccursAt(s: string, t: string, i: nat) {
    i + |t| <= |s| && s[i..i + |t|] == t
  }

  /** `s.includes(t)`: some occurrence of `t` in `s`. */
  predicate Contains(s: string, t: string) {
    exists i: nat | i <= |s| :: OccursAt(s, t, i)
  }

  /** The index of the leftmost occurrence of `t` in `s`, if any. */
  function IndexOf(s: string, t: string): (r: Option<nat>)
    ensures r.Some? ==> OccursAt(s, t, r.value)
    ensures r.Some? ==> forall j: nat :: j < r.value ==> !OccursAt(s, t, j)
    ensures r.None? <==> !Contains(s, t)
    decreases |s|
  {
    if |s| < |t| then
      None
    else if s[..|t|] == t then
      assert OccursAt(s, t, 0);
      Some(0)
    else
      var rest := IndexOf(s[1..], t);
      ShiftOccurrence(s, t);
      assert s[0..|t|] == s[..|t|];
      assert !OccursAt(s, t, 0);
      assert forall j: nat :: 0 < j ==> (OccursAt(s, t, j) <==> OccursAt(s[1..], t, j - 1));
      match rest
      case None => None
      case Some(i) => Some(i + 1)
  }

  /** Occurrences in `s[1..]` are the occurrences in `s` shifted by one. */
  lemma ShiftOccurrence(s: string, t: string)
    requires |s| > 0
    ensures forall i: nat :: OccursAt(s[1..], t, i) <==> OccursAt(s, t, i + 1)
  {
    forall i: nat
      ensures OccursAt(s[1..], t, i) <==> OccursAt(s, t, i + 1)
    {
      if i + |t| <= |s[1..]| {
        assert s[1..][i..i + |t|] == s[i + 1..i + 1 + |t|];
      }
    }
  }

  /** `parts.join(sep)`; the empty list joins to the empty string. */
  function Join(parts: seq<string>, sep: string): string
  {
    if |parts| == 0 then ""
    else if |parts| == 1 then parts[0]
    else parts[0] + sep + Join(parts[1..], sep)
  }

  /**
   * `s.split(sep)` for a non-empty literal separator: the pieces between the
   * leftmost non-overlapping occurrences, scanning left to right.
   */
  function SplitOn(s: string, sep: string): (r: seq<string>)
    requires |sep| > 0
    ensures |r| >= 1
    ensures Contains(s, sep) <==> |r| >= 2
    ensures forall k :: 0 <= k < |r| ==> !Contains(r[k], sep)
    ensures Join(r, sep) == s
    decreases |s|
  {
    match IndexOf(s, sep)
    case None => [s]
    case Some(i) =>
      PrefixBeforeFirst(s, sep, i);
      var tail := SplitOn(s[i + |sep|..], sep);
      assert s == s[..i] + sep + s[i + |sep|..];
      [s[..i]] + tail
  }

  /** The text before the leftmost occurrence contains no occurrence. */
  lemma PrefixBeforeFirst(s: string, t: string, i: nat)
    requires |t| > 0
    requires OccursAt(s, t, i)
    requires forall j: nat :: j < i ==> !OccursAt(s, t, j)
    ensures !Contains(s[..i], t)
  {
    if Contains(s[..i], t) {
      var j: nat :| j <= i && OccursAt(s[..i], t, j);
      assert s[..i][j..j + |t|] == s[j..j + |t|];
      assert OccursAt(s, t, j);
      assert false;
    }
  }

  /** A separator whose first character does not occur again in it; an occurrence of it cannot straddle a boundary. */
  predicate Unbordered(sep: string) {
    |sep| > 0 && forall k :: 0 < k < |sep| ==> sep[k] != sep[0]
  }

  /** When `head` has no occurrence of an unbordered `sep`, the first occurrence in `head + sep + rest` is right after `head`. */
  lemma FirstOccurrenceAfterHead(head: string, sep: string, rest: string)
    requires Unbordered(sep)
    requires !Contains(head, sep)
    ensures IndexOf(head + sep + rest, sep) == Some(|head|)
  {
    var s := head + sep + rest;
    assert s[|head|..|head| + |sep|] == sep;
    assert OccursAt(s, sep, |head|);
    forall j: nat | j < |head|
      ensures !OccursAt(s, sep, j)
    {
      if j + |sep| <= |head| {
        assert s[j..j + |sep|] == head[j..j + |sep|];
        assert !OccursAt(head, sep, j);
      } else {
        // an occurrence here would put sep[0] at a later position of sep
        assert s[|head|] == sep[0];
      }
    }
  }

  /**
   * Splitting a join gives back the parts, when the separator is unbordered
   * and no part contains it.
   */
  lemma {:induction false} SplitJoin(parts: seq<string>, sep: string)
    requires Unbordered(sep)
    requires |parts| > 0
    requires forall k :: 0 <= k < |parts| ==> !Contains(parts[k], sep)
    ensures SplitOn(Join(parts, sep), sep) == parts
    decreases |parts|
  {
    if |parts| == 1 {
      assert IndexOf(parts[0], sep).None?;
    } else {
      var rest := Join(parts[1..], sep);
      FirstOccurrenceAfterHead(parts[0], sep, rest);
      var s := parts[0] + sep + rest;
      assert s[..|parts[0]|] == parts[0];
      assert s[|parts[0]| + |sep|..] == rest;
      SplitJoin(parts[1..], sep);
      assert parts == [parts[0]] + parts[1..];
    }
  }

  /** The characters JavaScript's `String.prototype.trim` removes: white space and line terminators. */
  predicate IsJsSpace(c: char) {
    || c == '\t' || c == '\n' || c == '\U{000B}' || c == '\U{000C}' || c == '\r'
    || c == ' ' || c == '\U{00A0}' || c == '\U{1680}'
    || ('\U{2000}' <= c <= '\U{200A}')
    || c == '\U{2028}' || c == '\U{2029}' || c == '\U{202F}' || c == '\U{205F}'
    || c == '\U{3000}' || c == '\U{FEFF}'
  }

  /** `s` with leading white space removed. */
  function TrimStart(s: string): (r: string)
    ensures |r| <= |s| && r == s[|s| - |r|..]
    ensures |r| > 0 ==> !IsJsSpace(r[0])
    ensures forall k :: 0 <= k < |s| - |r| ==> IsJsSpace(s[k])
    decreases |s|
  {
    if |s| > 0 && IsJsSpace(s[0]) then TrimStart(s[1..]) else s
  }

  /** `s` with trailing white space removed. */
  function TrimEnd(s: string): (r: string)
    ensures |r| <= |s| && r == s[..|r|]
    ensures |r| > 0 ==> !IsJsSpace(r[|r| - 1])
    ensures forall k :: |r| <= k < |s| ==> IsJsSpace(s[k])
    decreases |s|
  {
    if |s| > 0 && IsJsSpace(s[|s| - 1]) then TrimEnd(s[..|s| - 1]) else s
  }

  /**
   * `s.trim()`: a substring of `s` with no white space at either end, and
   * everything cut off on either side is white space. So only a string of
   * white space trims to the empty string.
   */
  function Trim(s: string): (r: string)
    ensures Contains(s, r)
    ensures |r| > 0 ==> !IsJsSpace(r[0]) && !IsJsSpace(r[|r| - 1])
    ensures exists i: nat :: && OccursAt(s, r, i)
                             && (forall k :: 0 <= k < i ==> IsJsSpace(s[k]))
                             && (forall k :: i + |r| <= k < |s| ==> IsJsSpace(s[k]))
  {
    var r := TrimEnd(TrimStart(s));
    TrimBoth(s);
    r
  }

  /** Trimming both ends cuts white space off either side of one occurrence. */
  lemma TrimBoth(s: string)
    ensures var r := TrimEnd(TrimStart(s));
            && Contains(s, r)
            && exists i: nat :: && OccursAt(s, r, i)
                                && (forall k :: 0 <= k < i ==> IsJsSpace(s[k]))
                                && (forall k :: i + |r| <= k < |s| ==> IsJsSpace(s[k]))
  {
    var a := TrimStart(s);
    SpaceAround(s, a, TrimEnd(a));
  }

  /**
   * A prefix `b` of a suffix `a` of `s`, with only white space cut off
   * each time, sits in `s` between white space.
   */
  lemma SpaceAround(s: string, a: string, b: string)
    requires |a| <= |s| && a == s[|s| - |a|..]
    requires |b| <= |a| && b == a[..|b|]
    requires forall k :: 0 <= k < |s| - |a| ==> IsJsSpace(s[k])
    requires forall k :: |b| <= k < |a| ==> IsJsSpace(a[k])
    ensures && Contains(s, b)
            && exists i: nat :: && OccursAt(s, b, i)
                                && (forall k :: 0 <= k < i ==> IsJsSpace(s[k]))
                                && (forall k :: i + |b| <= k < |s| ==> IsJsSpace(s[k]))
  {
    var i: nat := |s| - |a|;
    assert s[i..][..|b|] == s[i..i + |b|];
    forall k | i + |b| <= k < |s|
      ensures IsJsSpace(s[k])
    {
      assert s[k] == a[k - i];
    }
    assert OccursAt(s, b, i);
  }

  /** Every string contains itself. */
  lemma ContainsSelf(s: string)
    ensures Contains(s, s)
  {
    assert s[0..|s|] == s;
    assert OccursAt(s, s, 0);
  }

  /** A substring of the first part of a concatenation is a substring of the whole. */
  lemma ContainsInPrefix(s: string, u: string, t: string)
    requires Contains(s, t)
    ensures Contains(s + u, t)
  {
    var i: nat :| i <= |s| && OccursAt(s, t, i);
    assert (s + u)[i..i + |t|] == s[i..i + |t|];
    assert OccursAt(s + u, t, i);
  }

  predicate IsDigits(s: string) {
    forall k :: 0 <= k < |s| ==> '0' <= s[k] <= '9'
  }

  /** The number a string of decimal digits denotes. */
  function DecimalValue(s: string): nat
    requires IsDigits(s)
  {
    if |s| == 0 then 0
    else 10 * DecimalValue(s[..|s| - 1]) + (s[|s| - 1] as int - '0' as int)
  }

  function DigitChar(d: nat): (c: char)
    requires d < 10
    ensures '0' <= c <= '9' && c as int - '0' as int == d
  {
    (d + '0' as int) as char
  }

  /** The decimal rendering of a natural number, without leading zeros. */
  function NatToString(n: nat): (r: string)
    ensures |r| >= 1 && IsDigits(r)
    ensures |r| > 1 ==> r[0] != '0'
  {
    if n < 10 then [DigitChar(n)] else NatToString(n / 10) + [DigitChar(n % 10)]
  }

  /** Reading back the decimal rendering of `n` gives `n`. */
  lemma {:induction false} NatToStringRoundTrip(n: nat)
    ensures DecimalValue(NatToString(n)) == n
  {
    if n >= 10 {
      var r := NatToString(n);
      assert r[..|r| - 1] == NatToString(n / 10);
      NatToStringRoundTrip(n / 10);
    }
  }

  /** `${n}` for an integer `n`. */
  function IntToString(n: int): (r: string)
    ensures n >= 0 ==> IsDigits(r) && DecimalValue(r) == n
    ensures n < 0 ==> |r| >= 2 && r[0] == '-' && IsDigits(r[1..]) && DecimalValue(r[1..]) == -n
    ensures n >= 0 ==> |r| >= 1 && (|r| > 1 ==> r[0] != '0')
    ensures n < 0 ==> (|r| > 2 ==> r[1] != '0')
  {
    if n < 0 then
      NatToStringRoundTrip(-n);
      "-" + NatToString(-n)
    else
      NatToStringRoundTrip(n);
      NatToString(n)
  }
}

=== FILE: types.dfy ===
/**
 * The data the adapter exchanges with the review server (changes, labels,
 * revisions, project info) and the generic pull-request vocabulary it
 * translates them into. Fields the REST API may omit are `Option`s: a
 * missing field is JavaScript `undefined`.
 */
module Types {
  import opened Wrappers

  /** An account as the server reports it; `username` may be absent. */
  datatype Account = Account(username: Option<string>)

  /** A label's summary: who approved it and who rejected it, if anyone. */
  datatype LabelInfo = LabelInfo(approved: Option<Account>, rejected: Option<Account>)

  /** One patch-set; `ref` is the refspec it can be fetched from. */
  datatype RevisionInfo = RevisionInfo(ref: string)

  /** One entry of a change's `problems` list (the CHECK option). */
  datatype Problem = Problem(message: string)

  /**
   * A change as returned by the search and detail endpoints. `number` is
   * `_number`, `changeId` is `change_id`, `currentRevision` is
   * `current_revision`. `status` is kept as free text: the server may
   * answer with a value outside NEW, MERGED and ABANDONED.
   */
  datatype Change = Change(
    number: int,
    changeId: string,
    branch: string,
    topic: Option<string>,
    hashtags: Option<seq<string>>,
    status: string,
    submittable: Option<bool>,
    problems: Option<seq<Problem>>,
    mergeable: Option<bool>,
    revisions: Option<map<string, RevisionInfo>>,
    currentRevision: Option<string>,
    labels: Option<map<string, LabelInfo>>,
    reviewers: Option<map<string, seq<Account>>>,
    subject: string)

  /** The project detail; only `state` is inspected. */
  datatype ProjectInfo = ProjectInfo(name: string, state: Option<string>)

  /** The generic pull-request states of the automation. */
  datatype PrState = Open | Closed | Merged | NotOpen | All

  /** The generic pull request, a projection of a change. */
  datatype Pr = Pr(
    number: int,
    state: PrState,
    sourceBranch: string,
    targetBranch: string,
    title: string,
    hasReviewers: bool)

  /** The traffic-light status of a branch. */
  datatype BranchStatus = Green | Yellow | Red

  /** Why a call failed: a thrown error or a rejected promise. */
  datatype Error =
    | NotFound(change: int)         // the server answers 404 for an unknown change
    | RepositoryArchived            // the project is not ACTIVE
    | ChangeNotCreated(message: string)
    | TypeError(what: string)       // a property read on `undefined`

  /** JavaScript truthiness of an optional string: defined and non-empty. */
  predicate Truthy(s: Option<string>) {
    s.Some? && |s.value| > 0
  }

  /** The name of the review label the adapter reads and votes on. */
  const CodeReview := "Code-Review"

  /** The tag attached to every message the adapter posts. */
  const MessageTag := "pull-request"
}

=== FILE: utils.dfy ===
/**
 * The pure helpers of the Gerrit platform: the branch-name codec that
 * carries a topic or hashtag after a marker, and the two state tables
 * between generic pull-request states and the server's vocabulary.
 */
module Utils {
  import opened Wrappers
  import opened Text
  import opened Types

  const TopicMarker := "%topic="
  const HashtagMarker := "%t="

  /** A logical branch name taken apart: the branch and at most one of topic or hashtag. */
  datatype BranchTarget = BranchTarget(branch: string, topic: Option<string>, hashtag: Option<string>)

  /**
   * `s` is `head + marker + piece + rest` where `head` and `piece` hold no
   * marker and `rest` is empty or starts with the next marker: `head` is the
   * text before the first marker and `piece` the text up to the second one.
   */
  predicate FirstSegments(s: string, marker: string, head: string, piece: string) {
    var n := |head| + |marker| + |piece|;
    && n <= |s|
    && s[..n] == head + marker + piece
    && (n == |s| || OccursAt(s[n..], marker, 0))
    && !Contains(head, marker)
    && !Contains(piece, marker)
  }

  /** A join of two or more parts starts with the first two parts and the separator between them. */
  lemma JoinFirstTwo(parts: seq<string>, sep: string)
    requires |parts| >= 2
    ensures Join(parts, sep) == parts[0] + sep + parts[1] + (if |parts| == 2 then "" else sep + Join(parts[2..], sep))
  {
    assert parts[1..][1..] == parts[2..];
  }

  /** The first two pieces of a split are the text before the first marker and the text up to the next. */
  lemma SplitSegments(s: string, marker: string)
    requires |marker| > 0 && Contains(s, marker)
    ensures FirstSegments(s, marker, SplitOn(s, marker)[0], SplitOn(s, marker)[1])
  {
    var res := SplitOn(s, marker);
    JoinFirstTwo(res, marker);
    var front := res[0] + marker + res[1];
    var rest := if |res| == 2 then "" else marker + Join(res[2..], marker);
    assert s == front + rest;
    assert s[..|front|] == front;
    assert s[|front|..] == rest;
    if |res| > 2 {
      assert rest[0..|marker|] == marker;
    }
  }

  /** The text between the first `marker` of `s` and the next one, or the end, is not empty. */
  predicate SegmentAfterFirst(s: string, marker: string) {
    match IndexOf(s, marker)
    case None => false
    case Some(i) => i + |marker| < |s| && !OccursAt(s, marker, i + |marker|)
  }

  /** The second piece of a split is non-empty exactly when the text after the first separator is. */
  lemma SecondPiece(s: string, marker: string)
    requires |marker| > 0 && Contains(s, marker)
    ensures |SplitOn(s, marker)| >= 2
    ensures |SplitOn(s, marker)[1]| > 0 <==> SegmentAfterFirst(s, marker)
  {
    var i := IndexOf(s, marker).value;
    var m := |marker|;
    var t := s[i + m..];
    assert SplitOn(s, marker) == [s[..i]] + SplitOn(t, marker);
    OccursAfter(s, marker, i + m);
    match IndexOf(t, marker)
    case None =>
      assert SplitOn(t, marker) == [t];
    case Some(j) =>
      assert SplitOn(t, marker)[0] == t[..j];
  }

  /** An occurrence at the start of `s[j..]` is an occurrence in `s` at `j`. */
  lemma OccursAfter(s: string, marker: string, j: nat)
    requires j <= |s|
    ensures OccursAt(s[j..], marker, 0) <==> OccursAt(s, marker, j)
  {
    if j + |marker| <= |s| {
      assert s[j..][0..|marker|] == s[j..j + |marker|];
    }
  }

  /**
   * Takes a logical branch name apart. `%topic=` is looked for first, so a
   * name with both markers yields a topic and never a hashtag; a name with
   * neither marker, or no name, yields `None`.
   */
  function SplitTopicAndBranch(name: Option<string>): (r: Option<BranchTarget>)
    ensures r.None? <==> name.None? || (!Contains(name.value, TopicMarker) && !Contains(name.value, HashtagMarker))
    ensures r.Some? && Contains(name.value, TopicMarker) ==>
              && r.value.hashtag.None? && r.value.topic.Some?
              && FirstSegments(name.value, TopicMarker, r.value.branch, r.value.topic.value)
    ensures r.Some? && !Contains(name.value, TopicMarker) ==>
              && r.value.topic.None? && r.value.hashtag.Some?
              && FirstSegments(name.value, HashtagMarker, r.value.branch, r.value.hashtag.value)
  {
    if name.Some? && Contains(name.value, TopicMarker) then
      var res := SplitOn(name.value, TopicMarker);
      SplitSegments(name.value, TopicMarker);
      Some(BranchTarget(res[0], Some(res[1]), None))
    else if name.Some? && Contains(name.value, HashtagMarker) then
      var res := SplitOn(name.value, HashtagMarker);
      SplitSegments(name.value, HashtagMarker);
      Some(BranchTarget(res[0], None, Some(res[1])))
    else
      None
  }

  /** Round trip: a branch and a topic joined by `%topic=` split back into the same two. */
  lemma TopicRoundTrip(b: string, t: string)
    requires !Contains(b, TopicMarker) && !Contains(t, TopicMarker)
    ensures SplitTopicAndBranch(Some(b + TopicMarker + t)) == Some(BranchTarget(b, Some(t), None))
  {
    SplitJoin([b, t], TopicMarker);
    assert Join([b, t], TopicMarker) == b + TopicMarker + t;
    assert Contains(b + TopicMarker + t, TopicMarker) by {
      assert OccursAt(b + TopicMarker + t, TopicMarker, |b|);
    }
  }

  /** Round trip for hashtags: a branch and a hashtag joined by `%t=` split back, when neither holds a marker. */
  lemma HashtagRoundTrip(b: string, h: string)
    requires !Contains(b, TopicMarker) && !Contains(h, TopicMarker)
    requires !Contains(b, HashtagMarker) && !Contains(h, HashtagMarker)
    ensures SplitTopicAndBranch(Some(b + HashtagMarker + h)) == Some(BranchTarget(b, None, Some(h)))
  {
    var s := b + HashtagMarker + h;
    NoTopicAcrossHashtag(b, h);
    SplitJoin([b, h], HashtagMarker);
    assert Join([b, h], HashtagMarker) == s;
    assert OccursAt(s, HashtagMarker, |b|);
  }

  /** Joining two marker-free texts with `%t=` cannot create a `%topic=`. */
  lemma NoTopicAcrossHashtag(b: string, h: string)
    requires !Contains(b, TopicMarker) && !Contains(h, TopicMarker)
    ensures !Contains(b + HashtagMarker + h, TopicMarker)
  {
    var s := b + HashtagMarker + h;
    var m := |b| + |HashtagMarker|;
    forall j: nat | j <= |s|
      ensures !OccursAt(s, TopicMarker, j)
    {
      if j + |TopicMarker| > |s| {
      } else if j + |TopicMarker| <= |b| {
        assert s[j..j + |TopicMarker|] == b[j..j + |TopicMarker|];
        assert !OccursAt(b, TopicMarker, j);
      } else if j >= m {
        assert s[j..j + |TopicMarker|] == h[j - m..j - m + |TopicMarker|];
        assert !OccursAt(h, TopicMarker, j - m);
      } else if j == |b| {
        // "%t=" does not read "%to"
        assert s[j..j + |TopicMarker|][2] == '=' != TopicMarker[2];
      } else if j < |b| {
        // the inserted '%' falls on a later position of "%topic=", which holds no '%'
        assert s[j..j + |TopicMarker|][|b| - j] == '%';
      } else {
        // the candidate starts on the 't' or '=' of the inserted marker
        assert s[j..j + |TopicMarker|][0] != '%';
      }
    }
  }

  /** The query term for a generic state; an absent state means All. */
  function MapPrStateToGerritFilter(state: Option<PrState>): (r: string)
    ensures |r| > 0
  {
    match state
    case Some(Closed) => "status:closed"
    case Some(Merged) => "status:merged"
    case Some(NotOpen) => "-status:open"
    case Some(Open) => "status:open"
    case _ => "-is:wip"
  }

  /** Distinct states give distinct terms, except that All and an absent state coincide. */
  lemma FilterTermsDistinct(a: Option<PrState>, b: Option<PrState>)
    requires MapPrStateToGerritFilter(a) == MapPrStateToGerritFilter(b)
    ensures a == b || (a in {None, Some(All)} && b in {None, Some(All)})
    ensures MapPrStateToGerritFilter(Some(NotOpen)) == "-" + MapPrStateToGerritFilter(Some(Open))
  {
  }

  /** The generic state of a server status; an unknown status maps to All. */
  function MapGerritChangeStateToPrState(status: string): (r: PrState)
    ensures r != NotOpen
  {
    if status == "NEW" then Open
    else if status == "MERGED" then Merged
    else if status == "ABANDONED" then Closed
    else All
  }

  /** The server status a generic state stands for, where there is one. */
  function GerritStatusOf(state: PrState): Option<string> {
    match state
    case Open => Some("NEW")
    case Merged => Some("MERGED")
    case Closed => Some("ABANDONED")
    case _ => None
  }

  /** The status table is invertible on the three known statuses and sends every other status to All. */
  lemma ChangeStateRoundTrip(status: string)
    ensures status in {"NEW", "MERGED", "ABANDONED"} ==> GerritStatusOf(MapGerritChangeStateToPrState(status)) == Some(status)
    ensures status !in {"NEW", "MERGED", "ABANDONED"} <==> MapGerritChangeStateToPrState(status) == All
    ensures forall st :: GerritStatusOf(st).Some? ==> MapGerritChangeStateToPrState(GerritStatusOf(st).value) == st
  {
  }

  /**
   * The projection of a change into a pull request: both branches are the
   * change's branch, and `hasReviewers` records that the field is present,
   * whatever it holds.
   */
  function MapGerritChangeToPr(c: Change): (pr: Pr)
    ensures pr.sourceBranch == pr.targetBranch == c.branch
    ensures pr.hasReviewers <==> c.reviewers.Some?
    ensures pr.state == MapGerritChangeStateToPrState(c.status)
  {
    Pr(c.number, MapGerritChangeStateToPrState(c.status), c.branch, c.branch, c.subject, c.reviewers.Some?)
  }

  /**
   * Two changes that agree on number, status, branch, subject and on
   * whether reviewers are reported give the same pull request: nothing else
   * of a change reaches it, and an empty reviewer map counts as reviewers.
   */
  lemma PrProjection(c1: Change, c2: Change)
    requires c1.number == c2.number && c1.status == c2.status
    requires c1.branch == c2.branch && c1.subject == c2.subject
    requires c1.reviewers.Some? == c2.reviewers.Some?
    ensures MapGerritChangeToPr(c1) == MapGerritChangeToPr(c2)
    ensures MapGerritChangeToPr(c1).number == c1.number && MapGerritChangeToPr(c1).title == c1.subject
  {
  }
}

=== FILE: wrappers.dfy ===
/** Optional values and results with an error, in the style of failure-compatible types. */
module Wrappers {

  /** A JavaScript value that may be `undefined`. */
  datatype Option<+T> = None | Some(value: T) {

    predicate IsFailure() {
      None?
    }

    function PropagateFailure<U>(): Option<U>
      requires None?
    {
      None
    }

    function Extract(): T
      requires Some?
    {
      value
    }

    /** The `??` operator: this value, or `default` when undefined. */
    function OrElse(default: Option<T>): Option<T> {
      match this
      case Some(_) => this
      case None => default
    }

    /** The `??` operator with a defined right-hand side. */
    function GetOr(default: T): T {
      match this
      case Some(v) => v
      case None => default
    }
  }

  /** A completed call (`Ok`) or a thrown error / rejected promise (`Err`). */
  datatype Result<+T, +E> = Ok(value: T) | Err(error: E) {

    predicate IsFailure() {
      Err?
    }

    function PropagateFailure<U>(): Result<U, E>
      requires Err?
    {
      Err(error)
    }

    function Extract(): T
      requires Ok?
    {
      value
    }
  }
}
